=== FILE: README.md ===
# eager-async-pool in Dafny

`asyncPool(executor, iterable, options)` runs `executor` over the items of an
iterable with at most `limit` calls in flight at once. It returns an async
iterator whose `next()` hands over one record per item, `{idx, item, value}`
or `{idx, item, error}`, in the order the calls settle. A `CancelToken`
passed as `options.cancel` stops the pool from pulling more items. The
library ships the scheduler twice, as `async`/`await` code in `lib/modern.js`
and as promise chains in `lib/index.js`. Both copies use the one-shot event
of `lib/utils.js`, and its array iterator as a fallback for an array that
has no `Symbol.iterator`. The cancellation token is in
`lib/cancel.js`.

This project models that core and proves properties of the model.

- `utils.dfy` (`Utils`): `arrayIterator` is a cursor that reads the array's
  current length on every call. `createEvent` is an event that fires once.
- `cancel.dfy` (`CancelTokens`): `Cancel`, `toString`, `isCancel`, the
  set-once `cancel` function, `CancelToken`, `throwIfRequested` and `source`.
- `scheduler.dfy` (`Scheduler`): the scheduler as an immutable state.
  - Its concurrency is cooperative and single-threaded, so every synchronous
    section between two suspension points is one atomic step, written as a
    pure function.
  - The environment chooses what happens next: which task settles, what a
    user iterator returns, and when the caller appends to the array or
    cancels. `RunActions` performs any such schedule.
- `invariants.dfy` (`Invariants`): the invariant `Valid`, kept by every
  step, and the safety properties that follow from it. A second invariant,
  `DoneSawArray`, says that an array's iterator reports `done` only with its
  cursor at the end of the array. The pool records the array's length at
  that moment (`doneAt`), which shows that every element present then has
  been dispatched.
- `setup.dfy` (`Setup`): option handling and the initial state, separately
  for each copy.
- `traces.dfy` (`Traces`): concrete schedules that exhibit the two defects
  listed under Findings.

The two copies differ in how they read `options`. For `limit`, the modern
copy uses a default in its destructuring of `options`, so only `undefined`
becomes 25, and a `null`
or `0` limit is refused. The legacy copy uses `options.limit || 25`, so
`null` and `0` both become 25 and only a negative limit is refused. A `null`
options object is replaced by `{}` in the legacy copy (lib/index.js:4),
while the modern copy's destructuring throws a `TypeError` on it
(lib/modern.js:8-9); the model leaves `null` options out.

`test/async-pool.spec.js:8-12` expects a zero limit to be refused by both
copies. `lib/index.js:6-8` does not refuse it, and the model follows the
code: see `Setup.LegacyLimit` and `Setup.LimitCopiesAgree`. The test does
not await its assertion, so the difference goes unnoticed.

Every scheduler step takes a `WakeMode`:

- `AsWritten` is the code as it stands.
- `Rechecked` is the corrected reading: before the consumer waits on the
  gate, and again after it wakes, it re-checks the buffer and the `done`
  condition.

Every invariant and safety lemma is proved for both modes. The lemmas that
concern the corrected behaviour use `Rechecked`.

## Model

| member | source | states |
|---|---|---|
| Utils.ArrayIterator | lib/utils.js:23-25 | a non-array is refused with `Not an array!`, exactly then; an array gets a cursor at position 0 |
| Utils.ArrayNext | lib/utils.js:27-32 | below the current length, it yields the element under the cursor and moves one place; at or past the length, it reports `done` and does not move |
| Utils.DrainArray | lib/utils.js:27-32 | calling `next` until `done` yields exactly the array, in order, after length + 1 calls, and `done` then repeats |
| Utils.LiveCursorYieldsInOrder | lib/utils.js:25-32 | under any mix of appends and calls, the values yielded are exactly the elements the cursor passed over, in order, and the cursor stays within the array |
| Utils.CreateEvent | lib/utils.js:12-19 | a new event has not fired |
| Utils.Emit | lib/utils.js:14-17 | after `emit` the event has fired |
| Utils.OnlyFirstEmitCounts | lib/utils.js:12-19 | any positive number of `emit` calls has the effect of one; a fired event stays as it is |
| CancelTokens.CancelToString | lib/cancel.js:9-11 | the text is `Cancel`, followed by `: ` and the message exactly when the message is non-empty |
| CancelTokens.CancelToStringInjective | lib/cancel.js:9-11 | two reasons with messages whose texts are equal are equal |
| CancelTokens.IsCancel | lib/cancel.js:15-17 | a value is a cancel exactly when it is an object whose `__CANCEL__` is truthy |
| CancelTokens.EveryCancelIsCancel | lib/cancel.js:5-17 | every `Cancel` is recognised, as is a bare object with `__CANCEL__: true`; an object without the flag is not |
| CancelTokens.RequestCancel | lib/cancel.js:30-37 | the first call sets the reason to `Cancel(message)`; a later call changes nothing |
| CancelTokens.FirstCancelWins | lib/cancel.js:30-37 | after any sequence of calls, the reason is the one the first call set, and without calls none is set |
| CancelTokens.NewCancelToken | lib/cancel.js:19-39 | a non-function is refused with the `TypeError`; an executor that throws makes the constructor throw its error; the constructor fails exactly in these two cases; otherwise the reason is unset exactly when the executor made no call, and is set by its first call |
| CancelTokens.ThrowIfRequested | lib/cancel.js:41-45 | it throws exactly when a reason is set, and throws that reason |
| CancelTokens.Source | lib/cancel.js:47-56 | the token starts without a reason, and its `cancel` sets the reason to `Cancel(message)` |
| Setup.ModernLimit | lib/modern.js:9-10 | an absent limit becomes 25; `null` and any limit at or below 0 are refused with the limit message; a positive limit is kept |
| Setup.LegacyLimit | lib/index.js:4-8 | absent, `null` and 0 become 25; only a negative limit is refused; a positive limit is kept |
| Setup.LimitCopiesAgree | lib/index.js:6-8 | the two copies read every limit alike except `null` and 0, which the modern copy refuses and the legacy copy turns into 25 |
| Setup.Construct | lib/modern.js:12-22 | a value that is neither iterable nor an array is refused with the iterable message, exactly then; otherwise the pool starts empty (nothing pulled, dispatched, running, buffered or delivered, an unfired gate), with an array's cursor at 0 |
| Setup.CreateModern | lib/modern.js:8-22 | the limit is checked before the iterable: a refused limit gives the limit message, an accepted limit with a non-iterable value gives the iterable message; the pool is created exactly when both are accepted, keeps the limit and the token, and starts empty with an array's cursor at 0 |
| Setup.CreateLegacy | lib/index.js:3-20 | the same for the legacy reading of the limit |
| Setup.InitialIsValid | lib/modern.js:18-22 | the initial state satisfies both invariants |
| Setup.CreatedPoolsAreValid | lib/modern.js:8-55 | a pool either copy creates satisfies the invariant `Valid`, and so does every state any run from it reaches |
| Setup.CreatedPoolsDispatchWholeArray | test/async-pool.spec.js:72-97 | over an array, once either copy's pool has seen `done` it has dispatched, in order, every element the array held at that moment, elements appended before included; with no appends, exactly the array |
| Setup.CopiesAgree | lib/index.js:3-20 | except for a `null` or 0 limit, the two copies build the same pool or throw the same error |
| Scheduler.CallIterator | lib/modern.js:46-47 | one more call of `iterator.next()`, whose result is pending: for a user iterator the value the environment offered; for an array below its current length the element under the cursor, which moves one place; for an array `done` only at or past its end, without moving, with the array's length recorded; nothing is dispatched and `iteratorNext`, `working`, the buffer and the token are unchanged |
| Scheduler.Next | lib/modern.js:39-52 | a non-empty buffer hands over its oldest record without suspending and changes nothing else, and no other record is ever handed over; `done` comes exactly in the terminal state and changes nothing; otherwise the consumer suspends, pulling exactly when the loop guard holds, with the user iterator's offered result pending, and as written awaiting the gate otherwise; only the pull changes the state; `iteratorNext`, the running tasks and the token are never touched |
| Scheduler.OnPullReturned | lib/modern.js:46-52 | the result becomes `iteratorNext`; a value is dispatched under the next index with `working` one higher; `done` dispatches nothing; another pull, carrying the user iterator's offered result, follows exactly when the loop guard holds again, that is after a value, below the limit and without cancellation; as written, leaving the loop awaits the gate; corrected, a record handed over is the oldest buffered one, and nothing else is ever delivered |
| Scheduler.OnGateOpened | lib/modern.js:53-55 | a fresh gate; a non-empty buffer hands over its oldest record and nothing else changes, and no record is handed over from an empty buffer; as written, an empty buffer is shifted anyway, yielding `undefined` with only the gate and phase changed; corrected, it never yields `undefined`, and a pull it starts carries the user iterator's offered result; `iteratorNext`, the running tasks and the token are never touched |
| Scheduler.OnTaskSettled | lib/modern.js:29-32 | the task leaves the running set and its record, with its own index and item, is appended to the buffer and to the pushed records; nothing else changes, `working` included |
| Scheduler.OnTaskCleanedUp | lib/modern.js:33-36 | `working` goes down by one and the gate fires; nothing else changes |
| Scheduler.OnItemAppended | test/async-pool.spec.js:93-96 | appending to the source array changes the array and nothing else |
| Scheduler.OnCancel | lib/cancel.js:30-37 | the pool's token is cancelled; a token already cancelled stays as it was; nothing else changes |
| Invariants.ApplyPreservesValid | lib/modern.js:24-55 | every step keeps the invariant: the limit bound, index accounting, FIFO delivery and, for arrays, the prefix of items |
| Invariants.RunPreservesValid | lib/modern.js:24-55 | every run from a valid state ends in a valid state |
| Invariants.WorkingWithinLimit | lib/modern.js:46 | under any schedule, `0 <= working <= limit` |
| Invariants.LogsOnlyGrow | lib/modern.js:25-32 | over any run, the dispatched items, the pushed records and the delivered records only grow at their ends |
| Invariants.StepDeliversWhatItHands | lib/modern.js:39-55 | every step appends to the delivered log exactly the record it hands to `next()`, if any |
| Invariants.DeliveredAreHanded | lib/modern.js:39-55 | over any run, in either reading, the records `next()` resolves to are exactly those appended to the delivered log, in order |
| Invariants.HandedInPushOrder | lib/modern.js:29-32 | over any run from a valid state, in either reading, `next()` hands over the records in the order the tasks pushed them, continuing where earlier deliveries stopped |
| Invariants.SettledIndicesDistinct | lib/modern.js:25-32 | no index is carried by two pushed records, nor by two buffered records |
| Invariants.RunningNotSettled | lib/modern.js:25-32 | a running task's index is carried by no pushed record |
| Invariants.DoneStopsPulling | lib/modern.js:43-51 | once the source has reported `done`, whatever happens afterwards, `iteratorNext` stays `done`, the source is not called again and nothing more is dispatched |
| Invariants.ArrayRecordsCarryArrayItems | lib/modern.js:25-32 | with an array source, the record for index k carries the array's k-th element, including elements appended later |
| Invariants.DoneOnlyWhenFinished | lib/modern.js:43-44 | `next()` resolves to `done` only in the terminal state, with the consumer idle |
| Invariants.FinishedMeansAllDelivered | lib/modern.js:43-44 | in the terminal state, every dispatched index 0 .. idx - 1 has been delivered exactly once |
| Invariants.FinishedStep | lib/modern.js:39-44 | one step from a terminal state leaves it terminal and valid, dispatches and pulls nothing, and reports only `done` |
| Invariants.FinishedIsStable | lib/modern.js:41-44 | once terminal, every later `next()` resolves to `done`, and nothing is pulled or dispatched |
| Invariants.CancelStopsDispatch | lib/modern.js:46 | after cancellation nothing more is pulled, and at most the item whose pull was already under way is still dispatched |
| Invariants.StepKeepsDoneSawArray | lib/utils.js:27-32 | every step keeps `DoneSawArray`: `done` from an array leaves the cursor at the recorded length, and no pull follows it |
| Invariants.DoneDispatchedArray | lib/modern.js:46-51 | under any schedule, once an array's iterator has reported `done`, the dispatched items are exactly the array's elements up to the length it had then, in order |
| Invariants.ItemsFixedWithoutAppends | lib/modern.js:24-55 | without appends the array never changes, and the recorded length stays its length |
| Invariants.DoneWithoutAppendsDispatchedAll | lib/modern.js:46-51 | without appends, `done` comes only after the whole array has been dispatched |
| Invariants.FinishedArrayDeliversEveryItem | test/async-pool.spec.js:72-97 | in the terminal state over an array, every element present when `done` was reported has been delivered, as the record with its own index |
| Invariants.RecheckedNeverUndefined | lib/modern.js:53-55 | corrected, `next()` never resolves to `{done: false, value: undefined}` |
| Invariants.RecheckedNeverStranded | lib/modern.js:53 | corrected, from every reachable state the pool itself can still move: the consumer is idle, a pull is pending, the gate has fired, or a task is still running or cleaning up |
| Invariants.StrandedForever | lib/modern.js:53 | a consumer whose wait cannot end (an unfired gate, no task running or cleaning up) stays so and never receives anything, whatever happens afterwards |
| Traces.EmptyArrayStrands | lib/modern.js:43-53 | as written, the first `next()` over an empty array pulls `done` and is left in a wait that cannot end |
| Traces.EmptyArrayDoneWhenRechecked | lib/modern.js:43-53 | corrected, the same call resolves to `done`, and every wait reached from the empty array can end |
| Traces.StaleGateYieldsUndefined | lib/modern.js:53-55 | as written, limit 2 over `[10, 20]` with a slow consumer yields both records, then `{done: false, value: undefined}`, then `done` |
| Traces.RecheckedEndsWithDone | lib/modern.js:53-55 | corrected, the same schedule yields both records and then `done` |

## Left out

- Timing. The order of microtasks and timers is not modelled; the environment may choose any order of steps that the code allows. As a result the exact golden interleavings of `test/async-pool.spec.js` are not stated. The model admits each of them, but it also admits every other order.
- The executor's body and its promise are modelled by outcome only: `TaskSettled` carries the fulfilment value or the rejection. An executor that throws synchronously, before `Promise.resolve` can wrap it, is not modelled.
- The `promise` field of `CancelToken` (lib/cancel.js:24-27 and line 37) is not modelled. The pool never awaits it.
- `asyncPoolCallback` (lib/modern.js:64-68, lib/index.js:80-99) is left out. It is a `for await` loop around `next()`, and the consumer's calls are modelled directly as `NextCalled`.
- The `Symbol` fallbacks of lib/utils.js:1-9 are left out. An array is always iterated by position, reading its length on every call. The engine's own array iterator, which the code reaches for arrays, does the same up to its first `done`; afterwards it stays `done`, while `ArrayNext` would yield elements appended later. The pool never pulls after `done`, so it cannot observe the difference.
- Limits that are not integers (`NaN`, fractions, strings) and a `null` iterable are not modelled.
- `null` options are not modelled: the legacy copy treats them as `{}` (lib/index.js:4), the modern copy throws a `TypeError` (lib/modern.js:8-9).
- A user iterator whose `next()` throws or rejects (lib/modern.js:47, lib/index.js:48-49) is not modelled. In the modern copy the pool's `next()` then rejects. In the legacy copy, a throw on the first pull of a call makes `next()` itself throw synchronously, because `iterator.next()` is evaluated before `Promise.resolve` wraps it (lib/index.js:48, 60-61); a throw on a later pull of the same call, inside `.then`, makes it reject. Either way the consumer may call again. In the model a pending pull always ends with a result.
- Changes to the source array other than appending (overwriting, removing or inserting elements) are not modelled; `OnItemAppended` is the only change. Such changes would break the record-to-element correspondence of `Invariants.ArrayRecordsCarryArrayItems` and the cursor bound in `Valid`.
- A thrown value other than an `Error` or a `TypeError` is not modelled: an executor passed to `CancelToken` throws one of those two here.
- Messages that are not strings are not modelled. A `Cancel` message is a string or absent.
- `Setup.Construct`: it does not model the distinction between `Symbol.iterator` and `Symbol.asyncIterator`; both are one user iterator whose results the environment supplies.
- Overlapping calls of `next()`. Only one call may be outstanding at a time (`Next` requires the consumer to be idle), because the library supports a single consumer.
- Liveness under fair scheduling is not stated. `Invariants.RecheckedNeverStranded` states only that some step of the pool remains possible.
- `Scheduler.RunActions` skips an action that cannot happen in the state reached, instead of rejecting the schedule.
- The TypeScript declarations and `test/typescript.ts` are not modelled.

## Findings

| source | as written | input that shows it | evidently intended | confidence | as-written member | corrected member |
|---|---|---|---|---|---|---|
| lib/modern.js:53-55 | After waking on the gate, `next()` shifts the buffer without checking it. The fast path never resets a gate that fired while nobody was waiting, so a later wait returns at once on an empty buffer. The same applies to lib/index.js:64-70. | Limit 2 over `[10, 20]`. Task 1 settles after record 0 is handed over and before the consumer's next call. The consumer then takes record 1 from the buffer, and its following `next()` pulls `done`. That call resolves to `{done: false, value: undefined}` instead of `{done: true}`. | After waking with an empty buffer, `next()` resolves to `done` or waits again. | high (not executed) | Traces.StaleGateYieldsUndefined | Invariants.RecheckedNeverUndefined |
| lib/modern.js:43-53 | When the refill loop ends because the source reported `done` while no task is counted in `working`, the consumer awaits a gate that nothing can fire any more. The same applies to lib/index.js:41-66. | `asyncPool(executor, [])`: the first `next()` never resolves. | `next()` resolves to `{done: true}`. | high (not executed) | Traces.EmptyArrayStrands | Invariants.RecheckedNeverStranded |

=== FILE: cancel.dfy ===
/** lib/cancel.js: the `Cancel` reason, `isCancel`, and the set-once
    `CancelToken` with `throwIfRequested` and `source()`. The token's
    `promise` is not part of this model. */
module CancelTokens {
  import opened Wrappers
  import opened Js

  /** A `Cancel` reason; `message` is absent for `new Cancel()`. */
  datatype Cancel = Cancel(message: Option<string>)

  /** Whether `this.message` is truthy. */
  predicate HasMessage(c: Cancel)
  {
    c.message.Some? && c.message.value != ""
  }

  /** `Cancel.prototype.toString`. */
  function CancelToString(c: Cancel): (r: string)
    ensures |r| >= 6 && r[..6] == "Cancel"
    ensures HasMessage(c) <==> |r| > 6
    ensures HasMessage(c) ==> |r| > 8 && r[6..8] == ": " && r[8..] == c.message.value
  {
    "Cancel" + (if HasMessage(c) then ": " + c.message.value else "")
  }

  /** The text of `toString` determines the message whenever there is one. */
  lemma CancelToStringInjective(c: Cancel, d: Cancel)
    requires HasMessage(c) && HasMessage(d)
    requires CancelToString(c) == CancelToString(d)
    ensures c == d
  {
    assert c.message.value == CancelToString(c)[8..];
  }

  /** A `Cancel` as a JavaScript value: its own `message` and the
      `__CANCEL__` flag it inherits from `Cancel.prototype`. */
  function AsValue(c: Cancel): JsValue
  {
    Object(map["message" := (if c.message.Some? then Str(c.message.value) else Undefined),
               "__CANCEL__" := Bool(true)])
  }

  /** `isCancel(value)`: only an object whose `__CANCEL__` is truthy qualifies. */
  function IsCancel(v: JsValue): (r: bool)
    ensures r <==> v.Object? && "__CANCEL__" in v.props && Truthy(v.props["__CANCEL__"])
  {
    Truthy(v) && Truthy(Property(v, "__CANCEL__"))
  }

  /** Every `Cancel` is recognised by `isCancel`; so is any object carrying a
      truthy `__CANCEL__`, and an object without one is not. */
  lemma EveryCancelIsCancel(c: Cancel)
    ensures IsCancel(AsValue(c))
    ensures IsCancel(Object(map["__CANCEL__" := Bool(true)]))
    ensures !IsCancel(Object(map["foo" := Str("bar")]))
  {
  }

  /** A `CancelToken`; `reason` is `undefined` until cancellation is requested. */
  datatype CancelToken = CancelToken(reason: Option<Cancel>)

  /** The argument of `new CancelToken(executor)`. A function is described by
      the messages it passes, synchronously, to the `cancel` function it is
      handed, and by the error it throws afterwards, if any; anything else is
      not a function. */
  datatype ExecutorArg = Function(cancels: seq<Option<string>>, throws: Option<Thrown>) | NotFunction

  /** The `cancel(message)` closure: sets the reason on the first call only. */
  function RequestCancel(t: CancelToken, message: Option<string>): (r: CancelToken)
    ensures t.reason.Some? ==> r == t
    ensures t.reason.None? ==> r.reason == Some(Cancel(message))
  {
    if t.reason.Some? then t else CancelToken(Some(Cancel(message)))
  }

  /** `cancel` called with each message of `ms` in turn. */
  function RequestCancels(t: CancelToken, ms: seq<Option<string>>): CancelToken
    decreases |ms|
  {
    if |ms| == 0 then t else RequestCancels(RequestCancel(t, ms[0]), ms[1..])
  }

  /** Cancellation is set-once: after any sequence of calls the reason is the
      one set first, and a token with no reason keeps none only if no call
      was made. */
  lemma {:induction false} FirstCancelWins(t: CancelToken, ms: seq<Option<string>>)
    ensures t.reason.Some? ==> RequestCancels(t, ms) == t
    ensures t.reason.None? && |ms| == 0 ==> RequestCancels(t, ms) == t
    ensures t.reason.None? && |ms| > 0 ==> RequestCancels(t, ms).reason == Some(Cancel(ms[0]))
    decreases |ms|
  {
    if |ms| > 0 {
      FirstCancelWins(RequestCancel(t, ms[0]), ms[1..]);
    }
  }

  /** `new CancelToken(executor)`: a `TypeError` for a non-function; the
      executor's own error when it throws, which the constructor does not
      catch; otherwise a token whose reason is set by the first `cancel` the
      executor made. */
  function NewCancelToken(executor: ExecutorArg): (r: Result<CancelToken, Thrown>)
    ensures r.Failure? <==> executor.NotFunction? || executor.throws.Some?
    ensures executor.NotFunction? ==> r == Failure(TypeError("executor must be a function."))
    ensures executor.Function? && executor.throws.Some? ==> r == Failure(executor.throws.value)
    ensures r.Success? ==> (r.value.reason.None? <==> |executor.cancels| == 0)
    ensures r.Success? && |executor.cancels| > 0 ==> r.value.reason == Some(Cancel(executor.cancels[0]))
  {
    match executor
    case NotFunction => Failure(TypeError("executor must be a function."))
    case Function(ms, throws) =>
      if throws.Some? then Failure(throws.value)
      else
        FirstCancelWins(CancelToken(None), ms);
        Success(RequestCancels(CancelToken(None), ms))
  }

  /** How a call ends: normally, or by throwing a `Cancel`. */
  datatype Completion = Normal | Throw(reason: Cancel)

  /** `throwIfRequested()`: throws the stored reason when there is one. */
  function ThrowIfRequested(t: CancelToken): (r: Completion)
    ensures r.Throw? <==> t.reason.Some?
    ensures r.Throw? ==> r.reason == t.reason.value
  {
    if t.reason.Some? then Throw(t.reason.value) else Normal
  }

  /** `CancelToken.source()`: a fresh token; its `cancel` is `RequestCancel`
      applied to that token. */
  function Source(): (t: CancelToken)
    ensures t.reason.None?
    ensures forall m :: RequestCancel(t, m).reason == Some(Cancel(m))
  {
    NewCancelToken(Function([], None)).value
  }
}

=== FILE: invariants.dfy ===
/** The scheduler's invariant and the safety properties that follow from it:
    the bound on `working`, the accounting of every dispatched index, FIFO
    delivery, set-once termination and the effect of cancellation. */
module Invariants {
  import opened Wrappers
  import opened Utils
  import opened Scheduler

  /** The indices carried by a sequence of records, in order. */
  function Indices<T, V, E>(rs: seq<Record<T, V, E>>): (ks: seq<nat>)
    ensures |ks| == |rs|
    ensures forall i :: 0 <= i < |rs| ==> ks[i] == rs[i].idx
  {
    seq(|rs|, i requires 0 <= i < |rs| => rs[i].idx)
  }

  /** 0, 1, ..., n - 1. */
  function Range(n: nat): seq<nat>
    decreases n
  {
    if n == 0 then [] else Range(n - 1) + [n - 1]
  }

  /** The item of a `Pulling` phase whose result has not been applied yet. */
  function PendingItems<T>(ph: Phase<T>): seq<T>
  {
    if ph.Pulling? && ph.pending.Yield? then [ph.pending.value] else []
  }

  /** Every record carries the item dispatched under its index. */
  ghost predicate RecordsMatch<T, V, E>(rs: seq<Record<T, V, E>>, dispatched: seq<T>)
  {
    forall i :: 0 <= i < |rs| ==> rs[i].idx < |dispatched| && rs[i].item == dispatched[rs[i].idx]
  }

  /** The invariant of every state a pool reaches. */
  ghost predicate Valid<T, V, E>(p: Pool<T, V, E>)
  {
    // the bound, with a pull in progress only below it
    && p.limit > 0
    && 0 <= p.working <= p.limit
    && p.working == |p.running| + p.cleanups
    && (p.phase.Pulling? ==> p.working < p.limit)
    // `idx` counts the dispatched items; running tasks carry theirs
    && p.idx == |p.dispatched|
    && (forall k :: k in p.running ==> k < |p.dispatched| && p.running[k] == p.dispatched[k])
    // records are handed over in the order they were pushed
    && p.settled == p.delivered + p.buffer
    && RecordsMatch(p.settled, p.dispatched)
    // dispatched indices = pushed (delivered + buffered) plus running, each once
    && multiset(Indices(p.settled)) + multiset(p.running.Keys) == multiset(Range(p.idx))
    // an array source: the items dispatched are its prefix, in order
    && (p.source.ArraySource? ==>
          && p.source.cursor.pos <= |p.source.items|
          && p.dispatched + PendingItems(p.phase) == p.source.items[..p.source.cursor.pos])
  }

  lemma {:induction false} RangeCount(n: nat)
    ensures forall k :: multiset(Range(n))[k] == (if 0 <= k < n then 1 else 0)
    decreases n
  {
    if n > 0 {
      RangeCount(n - 1);
      var top: nat := n - 1;
      assert multiset(Range(n)) == multiset(Range(n - 1)) + multiset{top};
    }
  }

  lemma IndicesAppend<T, V, E>(rs: seq<Record<T, V, E>>, r: Record<T, V, E>)
    ensures Indices(rs + [r]) == Indices(rs) + [r.idx]
  {
  }

  lemma ShiftPreservesValid<T, V, E>(p: Pool<T, V, E>)
    requires Valid(p) && |p.buffer| > 0 && !p.phase.Pulling?
    ensures Valid(Shift(p))
  {
    assert p.delivered + [p.buffer[0]] + p.buffer[1..] == p.delivered + p.buffer;
  }

  lemma CallIteratorPreservesValid<T, V, E>(p: Pool<T, V, E>, offer: IterResult<T>)
    requires Valid(p.(phase := Idle)) && p.working < p.limit
    ensures Valid(CallIterator(p, offer))
  {
    if p.source.ArraySource? {
      var items, c := p.source.items, p.source.cursor;
      if c.pos < |items| {
        assert items[..c.pos + 1] == items[..c.pos] + [items[c.pos]];
      }
    }
  }

  lemma LeaveLoopPreservesValid<T, V, E>(p: Pool<T, V, E>, mode: WakeMode)
    requires Valid(p.(phase := Idle))
    ensures Valid(LeaveLoop(p, mode).pool)
  {
    if mode.Rechecked? && |p.buffer| > 0 {
      ShiftPreservesValid(p.(phase := Idle));
    }
  }

  /** The refill loop's guard, evaluated in a state that is valid once the
      pull it follows has been applied, leads to a valid state. */
  lemma RefillPreservesValid<T, V, E>(p: Pool<T, V, E>, offer: IterResult<T>, mode: WakeMode)
    requires Valid(p.(phase := Idle))
    ensures Valid(Refill(p, offer, mode).pool)
  {
    if MayRefill(p) {
      CallIteratorPreservesValid(p, offer);
    } else {
      LeaveLoopPreservesValid(p, mode);
    }
  }

  lemma StartNextKeepsAccounting<T, V, E>(p: Pool<T, V, E>, x: T)
    requires multiset(Indices(p.settled)) + multiset(p.running.Keys) == multiset(Range(p.idx))
    requires p.idx !in p.running
    ensures var q := StartNext(p, x);
      multiset(Indices(q.settled)) + multiset(q.running.Keys) == multiset(Range(q.idx))
  {
    var q := StartNext(p, x);
    assert q.running.Keys == p.running.Keys + {p.idx};
    assert multiset(q.running.Keys) == multiset(p.running.Keys) + multiset{p.idx};
  }

  lemma StartNextKeepsItems<T, V, E>(p: Pool<T, V, E>, x: T)
    requires Valid(p)
    ensures var q := StartNext(p, x);
      && RecordsMatch(q.settled, q.dispatched)
      && (forall k :: k in q.running ==> k < |q.dispatched| && q.running[k] == q.dispatched[k])
  {
    var q := StartNext(p, x);
    forall i | 0 <= i < |q.settled|
      ensures q.settled[i].idx < |q.dispatched| && q.settled[i].item == q.dispatched[q.settled[i].idx]
    {
      assert p.settled[i].idx < |p.dispatched|;
    }
  }

  lemma StartNextPreservesValid<T, V, E>(p: Pool<T, V, E>, x: T)
    requires Valid(p) && p.working < p.limit && PendingItems(p.phase) == [x]
    ensures Valid(StartNext(p, x).(phase := Idle))
  {
    assert p.idx !in p.running;
    StartNextKeepsAccounting(p, x);
    StartNextKeepsItems(p, x);
  }

  lemma NextPreservesValid<T, V, E>(p: Pool<T, V, E>, offer: IterResult<T>, mode: WakeMode)
    requires Valid(p) && p.phase.Idle?
    ensures Valid(Next(p, offer, mode).pool)
  {
    if |p.buffer| > 0 {
      ShiftPreservesValid(p);
    } else if !(p.working == 0 && Stopped(p)) {
      RefillPreservesValid(p, offer, mode);
    }
  }

  lemma PullReturnedPreservesValid<T, V, E>(p: Pool<T, V, E>, offer: IterResult<T>, mode: WakeMode)
    requires Valid(p) && p.phase.Pulling?
    ensures Valid(OnPullReturned(p, offer, mode).pool)
  {
    var res := p.phase.pending;
    var p1 := p.(last := Some(res));
    if res.Yield? {
      StartNextPreservesValid(p1, res.value);
      RefillPreservesValid(StartNext(p1, res.value), offer, mode);
    } else {
      RefillPreservesValid(p1, offer, mode);
    }
  }

  lemma GateOpenedPreservesValid<T, V, E>(p: Pool<T, V, E>, offer: IterResult<T>, mode: WakeMode)
    requires Valid(p) && p.phase.Waiting? && p.gate.fired
    ensures Valid(OnGateOpened(p, offer, mode).pool)
  {
    var p1 := p.(gate := CreateEvent(), phase := Idle);
    if |p.buffer| > 0 {
      ShiftPreservesValid(p1);
    } else if mode.Rechecked? {
      NextPreservesValid(p1, offer, mode);
    }
  }

  lemma TaskSettledPreservesValid<T, V, E>(p: Pool<T, V, E>, k: nat, o: Outcome<V, E>)
    requires Valid(p) && k in p.running
    ensures Valid(OnTaskSettled(p, k, o))
  {
    var q := OnTaskSettled(p, k, o);
    var r := Record(k, p.running[k], o);
    IndicesAppend(p.settled, r);
    assert r.idx < |p.dispatched| && r.item == p.dispatched[r.idx];
    assert RecordsMatch(q.settled, q.dispatched);
    assert |q.running| == |p.running| - 1;
    assert p.running.Keys == q.running.Keys + {k};
    assert multiset(p.running.Keys) == multiset(q.running.Keys) + multiset{k};
    assert q.delivered + q.buffer == p.delivered + p.buffer + [r];
  }

  lemma ItemAppendedPreservesValid<T, V, E>(p: Pool<T, V, E>, x: T)
    requires Valid(p) && p.source.ArraySource?
    ensures Valid(OnItemAppended(p, x))
  {
    var items, pos := p.source.items, p.source.cursor.pos;
    assert (items + [x])[..pos] == items[..pos];
  }

  /** Every step keeps the invariant, in either reading of the gate. */
  lemma ApplyPreservesValid<T, V, E>(p: Pool<T, V, E>, a: Action<T, V, E>, mode: WakeMode)
    requires Valid(p) && Enabled(p, a)
    ensures Valid(Apply(p, a, mode).pool)
  {
    match a
    case NextCalled(offer) => NextPreservesValid(p, offer, mode);
    case PullReturned(offer) => PullReturnedPreservesValid(p, offer, mode);
    case GateOpened(offer) => GateOpenedPreservesValid(p, offer, mode);
    case TaskSettled(k, o) => TaskSettledPreservesValid(p, k, o);
    case TaskCleanedUp =>
    case ItemAppended(x) => ItemAppendedPreservesValid(p, x);
    case CancelCalled(m) =>
  }

  lemma {:induction false} RunPreservesValid<T, V, E>(p: Pool<T, V, E>, actions: seq<Action<T, V, E>>, mode: WakeMode)
    requires Valid(p)
    ensures Valid(RunActions(p, actions, mode).pool)
    decreases |actions|
  {
    if |actions| > 0 {
      if Enabled(p, actions[0]) {
        ApplyPreservesValid(p, actions[0], mode);
        RunPreservesValid(Apply(p, actions[0], mode).pool, actions[1..], mode);
      } else {
        RunPreservesValid(p, actions[1..], mode);
      }
    }
  }

  /** Whatever happens, at most `limit` tasks are counted in `working`, and
      never fewer than zero. */
  lemma WorkingWithinLimit<T, V, E>(p: Pool<T, V, E>, actions: seq<Action<T, V, E>>, mode: WakeMode)
    requires Valid(p)
    ensures var q := RunActions(p, actions, mode).pool;
      0 <= q.working <= q.limit && q.limit == p.limit
  {
    RunPreservesValid(p, actions, mode);
    LimitIsFixed(p, actions, mode);
  }

  lemma {:induction false} LimitIsFixed<T, V, E>(p: Pool<T, V, E>, actions: seq<Action<T, V, E>>, mode: WakeMode)
    ensures RunActions(p, actions, mode).pool.limit == p.limit
    decreases |actions|
  {
    if |actions| > 0 {
      var t := if Enabled(p, actions[0]) then Apply(p, actions[0], mode) else Transition(p, None);
      LimitIsFixed(t.pool, actions[1..], mode);
    }
  }

  /** One step only ever appends to the log of dispatched items, to the log
      of pushed records and to the log of delivered records. */
  lemma ApplyExtendsLogs<T, V, E>(p: Pool<T, V, E>, a: Action<T, V, E>, mode: WakeMode)
    requires Enabled(p, a)
    ensures var q := Apply(p, a, mode).pool;
      p.dispatched <= q.dispatched && p.settled <= q.settled && p.delivered <= q.delivered
  {
  }

  /** Indices are never reused and records never withdrawn: over any run the
      dispatched items, the pushed records and the delivered records only
      grow at their ends. */
  lemma {:induction false} LogsOnlyGrow<T, V, E>(p: Pool<T, V, E>, actions: seq<Action<T, V, E>>, mode: WakeMode)
    ensures var q := RunActions(p, actions, mode).pool;
      p.dispatched <= q.dispatched && p.settled <= q.settled && p.delivered <= q.delivered
    decreases |actions|
  {
    if |actions| > 0 {
      var t := if Enabled(p, actions[0]) then Apply(p, actions[0], mode) else Transition(p, None);
      if Enabled(p, actions[0]) {
        ApplyExtendsLogs(p, actions[0], mode);
      }
      LogsOnlyGrow(t.pool, actions[1..], mode);
    }
  }

  lemma TwiceInSeq(s: seq<nat>, i: nat, j: nat)
    requires i < j < |s| && s[i] == s[j]
    ensures multiset(s)[s[i]] >= 2
  {
    assert s == s[..j] + [s[j]] + s[j + 1..];
    assert s[i] in multiset(s[..j]);
  }

  lemma CountOneMeansDistinct(s: seq<nat>, i: nat, j: nat)
    requires i < j < |s| && multiset(s)[s[i]] <= 1
    ensures s[i] != s[j]
  {
    if s[i] == s[j] {
      TwiceInSeq(s, i, j);
    }
  }

  /** Part of a multiset of distinct indices has no repetition. */
  lemma DistinctWithinRange(ks: seq<nat>, rest: multiset<nat>, n: nat)
    requires multiset(ks) + rest == multiset(Range(n))
    ensures forall i, j :: 0 <= i < j < |ks| ==> ks[i] != ks[j]
  {
    RangeCount(n);
    forall i, j | 0 <= i < j < |ks|
      ensures ks[i] != ks[j]
    {
      assert multiset(ks)[ks[i]] <= multiset(Range(n))[ks[i]];
      CountOneMeansDistinct(ks, i, j);
    }
  }

  /** No index occurs twice among the pushed records, hence neither among the
      buffered nor among the delivered ones. */
  lemma SettledIndicesDistinct<T, V, E>(p: Pool<T, V, E>)
    requires Valid(p)
    ensures forall i, j :: 0 <= i < j < |p.settled| ==> p.settled[i].idx != p.settled[j].idx
    ensures forall i, j :: 0 <= i < j < |p.buffer| ==> p.buffer[i].idx != p.buffer[j].idx
  {
    var ks := Indices(p.settled);
    DistinctWithinRange(ks, multiset(p.running.Keys), p.idx);
    forall i, j | 0 <= i < j < |p.settled|
      ensures p.settled[i].idx != p.settled[j].idx
    {
      assert ks[i] != ks[j];
    }
    forall i, j | 0 <= i < j < |p.buffer|
      ensures p.buffer[i].idx != p.buffer[j].idx
    {
      assert p.buffer[i] == p.settled[|p.delivered| + i];
      assert p.buffer[j] == p.settled[|p.delivered| + j];
    }
  }

  /** A running task's index is not also carried by a pushed record. */
  lemma RunningNotSettled<T, V, E>(p: Pool<T, V, E>, k: nat)
    requires Valid(p) && k in p.running
    ensures forall i :: 0 <= i < |p.settled| ==> p.settled[i].idx != k
  {
    RangeCount(p.idx);
    var ks := Indices(p.settled);
    assert k < p.idx;
    assert multiset(p.running.Keys)[k] == 1;
    assert (multiset(ks) + multiset(p.running.Keys))[k] == multiset(Range(p.idx))[k];
    assert multiset(ks)[k] == 0;
    forall i | 0 <= i < |p.settled|
      ensures p.settled[i].idx != k
    {
      assert ks[i] in multiset(ks);
    }
  }

  /** A call of `next()` resolves to `done` only in a terminal state, and it
      does so without suspending. */
  lemma DoneOnlyWhenFinished<T, V, E>(p: Pool<T, V, E>, a: Action<T, V, E>, mode: WakeMode)
    requires Enabled(p, a)
    requires Apply(p, a, mode).out == Some(Done)
    ensures Finished(Apply(p, a, mode).pool) && Apply(p, a, mode).pool.phase.Idle?
    ensures a.NextCalled? && mode.AsWritten? ==> Finished(p) && Apply(p, a, mode).pool == p
  {
  }

  /** In a terminal state every dispatched task has been delivered to the
      consumer exactly once: nothing is running or buffered, and the delivered
      indices are exactly 0 .. idx - 1. */
  lemma FinishedMeansAllDelivered<T, V, E>(p: Pool<T, V, E>)
    requires Valid(p) && Finished(p)
    ensures |p.running| == 0 && |p.buffer| == 0
    ensures multiset(Indices(p.delivered)) == multiset(Range(p.idx))
    ensures |p.delivered| == p.idx
  {
    assert p.running.Keys == {};
    assert p.delivered == p.settled;
    RangeLength(p.idx);
  }

  lemma {:induction false} RangeLength(n: nat)
    ensures |Range(n)| == n
    decreases n
  {
    if n > 0 {
      RangeLength(n - 1);
    }
  }

  /** One step from a terminal state stays terminal and reports `done`, if
      it reports anything. */
  lemma FinishedStep<T, V, E>(p: Pool<T, V, E>, a: Action<T, V, E>, mode: WakeMode)
    requires Valid(p) && p.phase.Idle? && Finished(p)
    ensures var t := Step(p, a, mode);
      && Valid(t.pool) && Finished(t.pool) && t.pool.phase.Idle?
      && t.pool.idx == p.idx && t.pool.pulls == p.pulls
      && (t.out.Some? ==> t.out.value == Done)
  {
    assert p.running.Keys == {};
    if Enabled(p, a) {
      ApplyPreservesValid(p, a, mode);
      assert a.NextCalled? || a.ItemAppended? || a.CancelCalled?;
    }
  }

  /** Once `next()` has reported `done` the pool is terminal: whatever
      happens afterwards, every later `next()` reports `done` again and
      nothing is dispatched. */
  lemma {:induction false} FinishedIsStable<T, V, E>(p: Pool<T, V, E>, actions: seq<Action<T, V, E>>, mode: WakeMode)
    requires Valid(p) && p.phase.Idle? && Finished(p)
    ensures var r := RunActions(p, actions, mode);
      && Finished(r.pool) && r.pool.phase.Idle?
      && r.pool.idx == p.idx && r.pool.pulls == p.pulls
      && forall i :: 0 <= i < |r.outs| ==> r.outs[i] == Done
    decreases |actions|
  {
    if |actions| > 0 {
      var t := Step(p, actions[0], mode);
      FinishedStep(p, actions[0], mode);
      FinishedIsStable(t.pool, actions[1..], mode);
    }
  }

  /** One step after cancellation: no pull, and no dispatch beyond the item
      whose pull was already under way. */
  lemma CancelledStep<T, V, E>(p: Pool<T, V, E>, a: Action<T, V, E>, mode: WakeMode)
    requires Cancelled(p) && Enabled(p, a)
    ensures var q := Apply(p, a, mode).pool;
      && Cancelled(q) && q.pulls == p.pulls
      && p.dispatched <= q.dispatched
      && q.dispatched + PendingItems(q.phase) <= p.dispatched + PendingItems(p.phase)
  {
  }

  /** After cancellation nothing more is pulled from the source, and at most
      the one item whose pull was already under way is still dispatched. */
  lemma {:induction false} CancelStopsDispatch<T, V, E>(p: Pool<T, V, E>, actions: seq<Action<T, V, E>>, mode: WakeMode)
    requires Cancelled(p)
    ensures var q := RunActions(p, actions, mode).pool;
      && Cancelled(q) && q.pulls == p.pulls
      && p.dispatched <= q.dispatched <= p.dispatched + PendingItems(p.phase)
    decreases |actions|
  {
    if |actions| > 0 {
      var a := actions[0];
      var t := if Enabled(p, a) then Apply(p, a, mode) else Transition(p, None);
      if Enabled(p, a) {
        CancelledStep(p, a, mode);
      }
      CancelStopsDispatch(t.pool, actions[1..], mode);
    }
  }

  /** One step after the source has reported `done`: `iteratorNext` keeps
      the `done` result, nothing is pulled and nothing is dispatched. */
  lemma DoneStep<T, V, E>(p: Pool<T, V, E>, a: Action<T, V, E>, mode: WakeMode)
    requires SourceDone(p) && !p.phase.Pulling?
    ensures var q := Step(p, a, mode).pool;
      && q.last == p.last && !q.phase.Pulling?
      && q.pulls == p.pulls && q.idx == p.idx && q.dispatched == p.dispatched
  {
  }

  /** Once the source has reported `done`, it is never called again and
      nothing more is dispatched, whatever happens afterwards. Every reachable
      state meets the requirement: `DoneSawArray` holds of them all. */
  lemma {:induction false} DoneStopsPulling<T, V, E>(p: Pool<T, V, E>, actions: seq<Action<T, V, E>>, mode: WakeMode)
    requires SourceDone(p) && !p.phase.Pulling?
    ensures var q := RunActions(p, actions, mode).pool;
      && SourceDone(q) && q.last == p.last
      && q.pulls == p.pulls && q.idx == p.idx && q.dispatched == p.dispatched
    decreases |actions|
  {
    if |actions| > 0 {
      DoneStep(p, actions[0], mode);
      DoneStopsPulling(Step(p, actions[0], mode).pool, actions[1..], mode);
    }
  }

  /** With an array source, the record under index k carries the array's
      k-th element, including elements appended after the pool started. */
  lemma ArrayRecordsCarryArrayItems<T, V, E>(p: Pool<T, V, E>)
    requires Valid(p) && p.source.ArraySource?
    ensures p.dispatched == p.source.items[..p.idx]
    ensures forall i :: 0 <= i < |p.settled| ==>
      p.settled[i].idx < |p.source.items| && p.settled[i].item == p.source.items[p.settled[i].idx]
  {
    var items, pos := p.source.items, p.source.cursor.pos;
    assert p.dispatched == (p.dispatched + PendingItems(p.phase))[..p.idx];
    assert items[..pos][..p.idx] == items[..p.idx];
  }

  /** In the corrected reading, `next()` never resolves to a value of
      `undefined`. */
  lemma {:induction false} RecheckedNeverUndefined<T, V, E>(p: Pool<T, V, E>, actions: seq<Action<T, V, E>>)
    ensures ValueUndefined !in RunActions(p, actions, Rechecked).outs
    decreases |actions|
  {
    if |actions| > 0 {
      var t := if Enabled(p, actions[0]) then Apply(p, actions[0], Rechecked) else Transition(p, None);
      RecheckedNeverUndefined(t.pool, actions[1..]);
    }
  }

  /** The consumer awaits the gate only while something can still fire it:
      a task is still counted in `working`, or the gate has fired already. */
  ghost predicate WaitCanEnd<T, V, E>(p: Pool<T, V, E>)
  {
    p.phase.Waiting? ==> p.working > 0 || p.gate.fired
  }

  /** A consumer whose wait cannot end is stranded for good: it awaits a gate
      that has not fired while no task runs or has a cleanup left, so no
      `emit` can ever come. Only appends and cancellation can still occur,
      neither wakes the consumer, and its `next()` never resolves. */
  lemma {:induction false} StrandedForever<T, V, E>(p: Pool<T, V, E>, actions: seq<Action<T, V, E>>, mode: WakeMode)
    requires Valid(p) && !WaitCanEnd(p)
    ensures var r := RunActions(p, actions, mode);
      Valid(r.pool) && !WaitCanEnd(r.pool) && r.outs == []
    decreases |actions|
  {
    if |actions| > 0 {
      var a := actions[0];
      assert p.running.Keys == {} && p.cleanups == 0;
      if Enabled(p, a) {
        assert a.ItemAppended? || a.CancelCalled?;
        ApplyPreservesValid(p, a, mode);
      }
      StrandedForever(Step(p, a, mode).pool, actions[1..], mode);
    }
  }

  lemma RecheckedRefillWaitsOnlyForWork<T, V, E>(p: Pool<T, V, E>, offer: IterResult<T>)
    requires p.limit > 0 && p.working >= 0
    ensures var q := Refill(p, offer, Rechecked).pool;
      q.phase.Waiting? ==> q.working > 0
  {
  }

  lemma RecheckedStepKeepsWaitCanEnd<T, V, E>(p: Pool<T, V, E>, a: Action<T, V, E>)
    requires Valid(p) && WaitCanEnd(p) && Enabled(p, a)
    ensures WaitCanEnd(Apply(p, a, Rechecked).pool)
  {
    match a
    case NextCalled(offer) =>
      if |p.buffer| == 0 && !(p.working == 0 && Stopped(p)) {
        RecheckedRefillWaitsOnlyForWork(p, offer);
      }
    case PullReturned(offer) =>
      var res := p.phase.pending;
      var p1 := p.(last := Some(res));
      var p2 := if res.Yield? then StartNext(p1, res.value) else p1;
      RecheckedRefillWaitsOnlyForWork(p2, offer);
    case GateOpened(offer) =>
      var p1 := p.(gate := CreateEvent(), phase := Idle);
      if |p.buffer| == 0 && !(p.working == 0 && Stopped(p)) {
        RecheckedRefillWaitsOnlyForWork(p1, offer);
      }
    case TaskSettled(k, o) =>
    case TaskCleanedUp =>
    case ItemAppended(x) =>
    case CancelCalled(m) =>
  }

  /** In the corrected reading the consumer is never stranded: in every state
      reached, the pool itself can still move. A call of `next()` can be made
      (Idle), a pending pull can resume (Pulling), the gate can resume (fired),
      or a running task can settle or finish its cleanup. */
  lemma {:induction false} RecheckedNeverStranded<T, V, E>(p: Pool<T, V, E>, actions: seq<Action<T, V, E>>)
    requires Valid(p) && WaitCanEnd(p)
    ensures var q := RunActions(p, actions, Rechecked).pool;
      && Valid(q) && WaitCanEnd(q)
      && (q.phase.Idle? || q.phase.Pulling? || q.gate.fired || q.cleanups > 0 || |q.running| > 0)
    decreases |actions|
  {
    if |actions| == 0 {
      if p.phase.Waiting? && !p.gate.fired && p.cleanups == 0 {
        assert |p.running| > 0;
      }
    } else {
      var a := actions[0];
      if Enabled(p, a) {
        ApplyPreservesValid(p, a, Rechecked);
        RecheckedStepKeepsWaitCanEnd(p, a);
        RecheckedNeverStranded(Apply(p, a, Rechecked).pool, actions[1..]);
      } else {
        RecheckedNeverStranded(p, actions[1..]);
      }
    }
  }

  /** An array's iterator reports `done` only with its cursor at the end of
      the array: the pull that reported it recorded the array's length, which
      is where the cursor stands, and no pull follows it. */
  ghost predicate DoneSawArray<T, V, E>(p: Pool<T, V, E>)
  {
    && (SourceDone(p) ==> !p.phase.Pulling?)
    && (p.source.ArraySource? && (SourceDone(p) || (p.phase.Pulling? && p.phase.pending.Exhausted?)) ==>
          p.doneAt == Some(p.source.cursor.pos))
  }

  lemma StepKeepsDoneSawArray<T, V, E>(p: Pool<T, V, E>, a: Action<T, V, E>, mode: WakeMode)
    requires p.source.ArraySource? ==> p.source.cursor.pos <= |p.source.items|
    requires DoneSawArray(p)
    ensures DoneSawArray(Step(p, a, mode).pool)
    ensures Step(p, a, mode).pool.source.ArraySource? <==> p.source.ArraySource?
  {
  }

  /** Once an array's iterator has reported `done`, every element the array
      held at that moment has been dispatched, in order, under its own index:
      elements appended before `done` included, later ones excluded. */
  lemma {:induction false} DoneDispatchedArray<T, V, E>(p: Pool<T, V, E>, actions: seq<Action<T, V, E>>, mode: WakeMode)
    requires Valid(p) && DoneSawArray(p)
    ensures var q := RunActions(p, actions, mode).pool;
      && Valid(q) && DoneSawArray(q) && (q.source.ArraySource? <==> p.source.ArraySource?)
      && (q.source.ArraySource? && SourceDone(q) ==>
            q.doneAt.Some? && q.doneAt.value <= |q.source.items| && q.dispatched == q.source.items[..q.doneAt.value])
    decreases |actions|
  {
    if |actions| > 0 {
      var t := Step(p, actions[0], mode);
      if Enabled(p, actions[0]) {
        ApplyPreservesValid(p, actions[0], mode);
      }
      StepKeepsDoneSawArray(p, actions[0], mode);
      DoneDispatchedArray(t.pool, actions[1..], mode);
    }
  }

  /** The length recorded at `done` is the array's current length. */
  predicate DoneAtLength<T, V, E>(p: Pool<T, V, E>)
  {
    p.source.ArraySource? && p.doneAt.Some? ==> p.doneAt.value == |p.source.items|
  }

  lemma StepKeepsItems<T, V, E>(p: Pool<T, V, E>, a: Action<T, V, E>, mode: WakeMode)
    requires !a.ItemAppended?
    ensures var q := Step(p, a, mode).pool;
      && (q.source.ArraySource? <==> p.source.ArraySource?)
      && (p.source.ArraySource? ==> q.source.items == p.source.items)
      && (DoneAtLength(p) ==> DoneAtLength(q))
  {
  }

  /** Without appends, the array a pool iterates stays the one it started with. */
  lemma {:induction false} ItemsFixedWithoutAppends<T, V, E>(p: Pool<T, V, E>, actions: seq<Action<T, V, E>>, mode: WakeMode)
    requires forall i :: 0 <= i < |actions| ==> !actions[i].ItemAppended?
    ensures var q := RunActions(p, actions, mode).pool;
      && (q.source.ArraySource? <==> p.source.ArraySource?)
      && (p.source.ArraySource? ==> q.source.items == p.source.items)
      && (DoneAtLength(p) ==> DoneAtLength(q))
    decreases |actions|
  {
    if |actions| > 0 {
      StepKeepsItems(p, actions[0], mode);
      ItemsFixedWithoutAppends(Step(p, actions[0], mode).pool, actions[1..], mode);
    }
  }

  /** A pool over an array that nobody appends to dispatches the whole array
      before its iterator reports `done`. */
  lemma DoneWithoutAppendsDispatchedAll<T, V, E>(p: Pool<T, V, E>, actions: seq<Action<T, V, E>>, mode: WakeMode)
    requires Valid(p) && DoneSawArray(p) && DoneAtLength(p) && p.source.ArraySource?
    requires forall i :: 0 <= i < |actions| ==> !actions[i].ItemAppended?
    ensures var q := RunActions(p, actions, mode).pool;
      SourceDone(q) ==> q.dispatched == p.source.items
  {
    DoneDispatchedArray(p, actions, mode);
    ItemsFixedWithoutAppends(p, actions, mode);
  }

  /** When a pool over an array has reported `done`, every element the array
      held when its iterator finished has reached the consumer, as the record
      under that element's index. */
  lemma FinishedArrayDeliversEveryItem<T, V, E>(p: Pool<T, V, E>, k: nat)
    requires Valid(p) && DoneSawArray(p) && Finished(p) && p.source.ArraySource? && SourceDone(p)
    requires p.doneAt.Some? && k < p.doneAt.value
    ensures exists i :: 0 <= i < |p.delivered| && p.delivered[i].idx == k && p.delivered[i].item == p.source.items[k]
  {
    FinishedMeansAllDelivered(p);
    RangeContains(p.idx, k);
    var ks := Indices(p.delivered);
    assert k in multiset(ks);
    var i :| 0 <= i < |ks| && ks[i] == k;
    assert p.delivered[i].idx == k;
  }

  lemma {:induction false} RangeContains(n: nat, k: nat)
    requires k < n
    ensures k in multiset(Range(n))
    decreases n
  {
    if k < n - 1 {
      RangeContains(n - 1, k);
    }
  }

  /** The records among a sequence of `next()` results, in order. */
  function Handed<T, V, E>(outs: seq<PullResult<T, V, E>>): (rs: seq<Record<T, V, E>>)
    ensures |rs| <= |outs|
    decreases |outs|
  {
    if |outs| == 0 then [] else (if outs[0].Value? then [outs[0].record] else []) + Handed(outs[1..])
  }

  lemma HandedAppend<T, V, E>(a: seq<PullResult<T, V, E>>, b: seq<PullResult<T, V, E>>)
    requires |a| <= 1
    ensures Handed(a + b) == Handed(a) + Handed(b)
  {
    if |a| == 1 {
      assert (a + b)[1..] == b;
      assert a[1..] == [];
    } else {
      assert a + b == b;
    }
  }

  lemma HandedChain<T, V, E>(d0: seq<Record<T, V, E>>, d1: seq<Record<T, V, E>>, d2: seq<Record<T, V, E>>,
                             e: seq<PullResult<T, V, E>>, rest: seq<PullResult<T, V, E>>)
    requires |e| <= 1 && d1 == d0 + Handed(e) && d2 == d1 + Handed(rest)
    ensures d2 == d0 + Handed(e + rest)
  {
    HandedAppend(e, rest);
    assert (d0 + Handed(e)) + Handed(rest) == d0 + (Handed(e) + Handed(rest));
  }

  /** One step hands over at most one record, and that record is exactly
      what it appends to the delivered log. */
  lemma StepDeliversWhatItHands<T, V, E>(p: Pool<T, V, E>, a: Action<T, V, E>, mode: WakeMode)
    ensures var t := Step(p, a, mode);
      t.pool.delivered == p.delivered + Handed(Emitted(t))
  {
  }

  /** Over any run, the records `next()` resolves to are exactly the records
      appended to the delivered log, in the same order. */
  lemma {:induction false} DeliveredAreHanded<T, V, E>(p: Pool<T, V, E>, actions: seq<Action<T, V, E>>, mode: WakeMode)
    ensures var r := RunActions(p, actions, mode);
      r.pool.delivered == p.delivered + Handed(r.outs)
    decreases |actions|
  {
    if |actions| > 0 {
      var t := Step(p, actions[0], mode);
      var rest := RunActions(t.pool, actions[1..], mode);
      assert RunActions(p, actions, mode) == Run(rest.pool, Emitted(t) + rest.outs);
      StepDeliversWhatItHands(p, actions[0], mode);
      DeliveredAreHanded(t.pool, actions[1..], mode);
      HandedChain(p.delivered, t.pool.delivered, rest.pool.delivered, Emitted(t), rest.outs);
    }
  }

  /** In either reading, `next()` hands over the records in the order their
      tasks pushed them: the records of a run are the pushed records that
      follow those delivered before it. */
  lemma HandedInPushOrder<T, V, E>(p: Pool<T, V, E>, actions: seq<Action<T, V, E>>, mode: WakeMode)
    requires Valid(p)
    ensures var r := RunActions(p, actions, mode);
      && |p.delivered| + |Handed(r.outs)| <= |r.pool.settled|
      && Handed(r.outs) == r.pool.settled[|p.delivered|..|p.delivered| + |Handed(r.outs)|]
  {
    var r := RunActions(p, actions, mode);
    DeliveredAreHanded(p, actions, mode);
    RunPreservesValid(p, actions, mode);
    assert r.pool.settled == p.delivered + Handed(r.outs) + r.pool.buffer;
  }
}

=== FILE: js.dfy ===
/** The few JavaScript notions the library's code relies on: values as far as
    truthiness and one property lookup go, and the two kinds of thrown error. */
module Js {

  /** A JavaScript value. Numbers are integers here (NaN and fractions are not
      modelled); an object is its own and inherited properties, flattened. */
  datatype JsValue =
    | Undefined
    | Null
    | Bool(b: bool)
    | Number(n: int)
    | Str(s: string)
    | Object(props: map<string, JsValue>)

  /** ECMAScript ToBoolean on the values above. */
  predicate Truthy(v: JsValue)
  {
    match v
    case Undefined => false
    case Null => false
    case Bool(b) => b
    case Number(n) => n != 0
    case Str(s) => s != ""
    case Object(_) => true
  }

  /** `v[key]` for a value that is truthy; primitives carry none of the
      property names this library looks up. */
  function Property(v: JsValue, key: string): JsValue
  {
    if v.Object? && key in v.props then v.props[key] else Undefined
  }

  /** What a `throw` in the library carries: `new Error(m)` or `new TypeError(m)`. */
  datatype Thrown = Error(message: string) | TypeError(message: string)
}

=== FILE: scheduler.dfy ===
/** The bounded pool scheduler of `asyncPool` (lib/modern.js and lib/index.js
    hold the same scheduler over the same state).

    Its concurrency is cooperative and single-threaded: all state changes
    happen in synchronous code between suspension points, so each such
    section is one atomic step here, a pure function from state to state.
    Which in-flight task settles next, what a user iterator returns, when the
    caller appends to a live array or cancels, are the environment's choice:
    they are the parameters of the steps. */
module Scheduler {
  import opened Wrappers
  import opened Utils
  import CancelTokens

  /** How an executor's promise settled. */
  datatype Outcome<V, E> = Fulfilled(value: V) | Rejected(error: E)

  /** A buffered result `{idx, item, value}` or `{idx, item, error}`. */
  datatype Record<T, V, E> = Record(idx: nat, item: T, outcome: Outcome<V, E>)

  /** What a call of `next()` resolves to: `{done: true}`, `{done: false, value}`,
      or `{done: false, value: undefined}` (a shift of an empty buffer). */
  datatype PullResult<T, V, E> = Done | Value(record: Record<T, V, E>) | ValueUndefined

  /** The iterator the pool pulls from: the live cursor over a shared array,
      or a user iterator whose results the environment supplies. */
  datatype Source<T> = ArraySource(items: seq<T>, cursor: ArrayCursor) | IteratorSource

  /** Where the consumer's current `next()` call is: none in progress, awaiting
      the result of an `iterator.next()` already called, or awaiting the gate. */
  datatype Phase<T> = Idle | Pulling(pending: IterResult<T>) | Waiting

  /** The closure state of one pool. The first nine fields are the source's
      variables; the rest is bookkeeping that names what the source leaves
      implicit: the tasks still running (index to item), the tasks that pushed
      their record but have not yet run `working -= 1`, every item dispatched,
      every record pushed, every record handed to the consumer, the number
      of `iterator.next()` calls, and, for an array source, the array's length
      when its iterator reported `done`. */
  datatype Pool<T, V, E> = Pool(
    limit: nat,
    cancel: Option<CancelTokens.CancelToken>,
    source: Source<T>,
    idx: nat,
    working: int,
    buffer: seq<Record<T, V, E>>,
    last: Option<IterResult<T>>,
    gate: Event,
    phase: Phase<T>,
    running: map<nat, T>,
    cleanups: nat,
    dispatched: seq<T>,
    settled: seq<Record<T, V, E>>,
    delivered: seq<Record<T, V, E>>,
    pulls: nat,
    doneAt: Option<nat>
  )

  /** A step's new state, and what the pending `next()` resolves to if it does. */
  datatype Transition<T, V, E> = Transition(pool: Pool<T, V, E>, out: Option<PullResult<T, V, E>>)

  /** `iteratorNext && iteratorNext.done`. */
  predicate SourceDone<T, V, E>(p: Pool<T, V, E>)
  {
    p.last.Some? && p.last.value.Exhausted?
  }

  /** `cancel && cancel.reason`. */
  predicate Cancelled<T, V, E>(p: Pool<T, V, E>)
  {
    p.cancel.Some? && p.cancel.value.reason.Some?
  }

  predicate Stopped<T, V, E>(p: Pool<T, V, E>)
  {
    SourceDone(p) || Cancelled(p)
  }

  /** The refill loop's guard. */
  predicate MayRefill<T, V, E>(p: Pool<T, V, E>)
  {
    p.working != p.limit && !Stopped(p)
  }

  /** The condition under which `next()` reports `done`. */
  predicate Finished<T, V, E>(p: Pool<T, V, E>)
  {
    |p.buffer| == 0 && p.working == 0 && Stopped(p)
  }

  /** `iterator.next()` is called; the pool then awaits its result. For an
      array the result is read from the array now; a user iterator's result is
      `offer`. */
  function CallIterator<T, V, E>(p: Pool<T, V, E>, offer: IterResult<T>): (q: Pool<T, V, E>)
    ensures q.phase.Pulling? && q.pulls == p.pulls + 1
    ensures q.source.ArraySource? <==> p.source.ArraySource?
    ensures p.source.IteratorSource? ==> q.phase.pending == offer && q.source == p.source
    ensures p.source.ArraySource? && p.source.cursor.pos < |p.source.items| ==>
      && q.phase.pending == Yield(p.source.items[p.source.cursor.pos])
      && q.source == ArraySource(p.source.items, ArrayCursor(p.source.cursor.pos + 1))
    ensures p.source.ArraySource? && q.phase.pending.Exhausted? ==>
      && |p.source.items| <= p.source.cursor.pos && q.source == p.source
      && q.doneAt == Some(|p.source.items|)
    ensures p.source.IteratorSource? || q.phase.pending.Yield? ==> q.doneAt == p.doneAt
    ensures q == p.(source := q.source, phase := q.phase, pulls := q.pulls, doneAt := q.doneAt)
  {
    match p.source
    case ArraySource(items, c) =>
      var step := ArrayNext(items, c);
      var seen := if step.0.Exhausted? then Some(|items|) else p.doneAt;
      p.(source := ArraySource(items, step.1), phase := Pulling(step.0), pulls := p.pulls + 1,
         doneAt := seen)
    case IteratorSource =>
      p.(phase := Pulling(offer), pulls := p.pulls + 1)
  }

  /** Which reading of the consumer's wait a run uses: the code as written,
      or the corrected one that checks the buffer and the `done` condition
      again before waiting and after waking. */
  datatype WakeMode = AsWritten | Rechecked

  /** `buffer.shift()` of a non-empty buffer, handing the record to the consumer. */
  function Shift<T, V, E>(p: Pool<T, V, E>): Pool<T, V, E>
    requires |p.buffer| > 0
  {
    p.(buffer := p.buffer[1..], delivered := p.delivered + [p.buffer[0]])
  }

  /** The refill loop has ended. As written, the consumer then awaits the gate
      unconditionally; corrected, it first delivers a buffered record or
      reports `done` when nothing is left to wait for. */
  function LeaveLoop<T, V, E>(p: Pool<T, V, E>, mode: WakeMode): (t: Transition<T, V, E>)
  {
    if mode.Rechecked? && |p.buffer| > 0 then
      Transition(Shift(p.(phase := Idle)), Some(Value(p.buffer[0])))
    else if mode.Rechecked? && p.working == 0 && Stopped(p) then
      Transition(p.(phase := Idle), Some(Done))
    else
      Transition(p.(phase := Waiting), None)
  }

  /** One evaluation of the refill loop's guard: pull once more, or leave the
      loop. */
  function Refill<T, V, E>(p: Pool<T, V, E>, offer: IterResult<T>, mode: WakeMode): (t: Transition<T, V, E>)
  {
    if MayRefill(p) then Transition(CallIterator(p, offer), None) else LeaveLoop(p, mode)
  }

  /** `startNext`: the item gets the current index, the index and `working`
      go up by one. */
  function StartNext<T, V, E>(p: Pool<T, V, E>, item: T): Pool<T, V, E>
  {
    p.(idx := p.idx + 1, working := p.working + 1,
       running := p.running[p.idx := item], dispatched := p.dispatched + [item])
  }

  /** The consumer calls `next()`: the buffered fast path, the `done` check,
      or the start of the refill loop. */
  function Next<T, V, E>(p: Pool<T, V, E>, offer: IterResult<T>, mode: WakeMode): (t: Transition<T, V, E>)
    requires p.phase.Idle?
    ensures |p.buffer| > 0 ==>
      && t.out == Some(Value(p.buffer[0]))
      && t.pool == p.(buffer := p.buffer[1..], delivered := p.delivered + [p.buffer[0]])
    ensures t.out == Some(Done) <==> Finished(p)
    ensures t.out == Some(Done) ==> t.pool == p
    ensures t.out != Some(ValueUndefined)
    ensures t.out.None? ==> |p.buffer| == 0 && !Finished(p) && !t.pool.phase.Idle?
    ensures t.out.None? ==> (t.pool.phase.Pulling? <==> MayRefill(p))
    ensures t.out.None? && t.pool.phase.Pulling? ==> t.pool.pulls == p.pulls + 1
    ensures t.out.None? && t.pool.phase.Pulling? && p.source.IteratorSource? ==> t.pool.phase.pending == offer
    ensures mode.AsWritten? && t.out.None? && !t.pool.phase.Pulling? ==> t.pool.phase.Waiting?
    ensures t.out.Some? && t.out.value.Value? ==> |p.buffer| > 0
    ensures t.out.None? ==>
      t.pool == p.(source := t.pool.source, phase := t.pool.phase, pulls := t.pool.pulls, doneAt := t.pool.doneAt)
    ensures t.pool.last == p.last && t.pool.cancel == p.cancel && t.pool.running == p.running
  {
    if |p.buffer| > 0 then
      Transition(Shift(p), Some(Value(p.buffer[0])))
    else if p.working == 0 && Stopped(p) then
      Transition(p, Some(Done))
    else
      Refill(p, offer, mode)
  }

  /** The awaited `iterator.next()` resumes: the result becomes `iteratorNext`,
      is dispatched unless it is `done`, and the loop guard is evaluated again. */
  function OnPullReturned<T, V, E>(p: Pool<T, V, E>, offer: IterResult<T>, mode: WakeMode): (t: Transition<T, V, E>)
    requires p.phase.Pulling?
    ensures t.pool.last == Some(p.phase.pending)
    ensures p.phase.pending.Yield? ==>
      && t.pool.idx == p.idx + 1 && t.pool.working == p.working + 1
      && t.pool.running == p.running[p.idx := p.phase.pending.value]
      && t.pool.dispatched == p.dispatched + [p.phase.pending.value]
    ensures p.phase.pending.Exhausted? ==>
      && t.pool.idx == p.idx && t.pool.working == p.working && t.pool.running == p.running
      && !t.pool.phase.Pulling?
    ensures t.pool.settled == p.settled && t.pool.gate == p.gate
    ensures mode.AsWritten? ==> t.out.None? && t.pool.buffer == p.buffer
    ensures t.out != Some(ValueUndefined)
    ensures t.out == Some(Done) ==> Finished(t.pool) && t.pool.phase.Idle?
    ensures t.pool.phase.Pulling? <==> p.phase.pending.Yield? && p.working + 1 != p.limit && !Cancelled(p)
    ensures t.pool.pulls == (if t.pool.phase.Pulling? then p.pulls + 1 else p.pulls)
    ensures t.pool.cancel == p.cancel && t.pool.limit == p.limit
    ensures t.pool.phase.Pulling? && p.source.IteratorSource? ==> t.pool.phase.pending == offer
    ensures mode.AsWritten? && !t.pool.phase.Pulling? ==> t.pool.phase.Waiting?
    ensures t.out.Some? && t.out.value.Value? ==>
      && |p.buffer| > 0 && t.out.value.record == p.buffer[0]
      && t.pool.buffer == p.buffer[1..] && t.pool.delivered == p.delivered + [p.buffer[0]]
    ensures t.out.None? || t.out == Some(Done) ==> t.pool.delivered == p.delivered
  {
    var res := p.phase.pending;
    var p1 := p.(last := Some(res));
    var p2 := if res.Yield? then StartNext(p1, res.value) else p1;
    Refill(p2, offer, mode)
  }

  /** The awaited gate resumes: a fresh gate is installed. As written,
      `buffer.shift()` follows, yielding `undefined` when the buffer is
      empty; corrected, an empty buffer sends `next()` back to its start. */
  function OnGateOpened<T, V, E>(p: Pool<T, V, E>, offer: IterResult<T>, mode: WakeMode): (t: Transition<T, V, E>)
    requires p.phase.Waiting? && p.gate.fired
    ensures |p.buffer| > 0 ==>
      && t.out == Some(Value(p.buffer[0]))
      && t.pool == p.(gate := CreateEvent(), phase := Idle, buffer := p.buffer[1..], delivered := p.delivered + [p.buffer[0]])
    ensures mode.AsWritten? ==>
      && !t.pool.gate.fired && t.pool.phase.Idle? && t.out.Some? && t.out != Some(Done)
      && t.pool.idx == p.idx && t.pool.working == p.working && t.pool.running == p.running
    ensures mode.AsWritten? && |p.buffer| == 0 ==>
      t.out == Some(ValueUndefined) && t.pool == p.(gate := CreateEvent(), phase := Idle)
    ensures t.pool.last == p.last && t.pool.cancel == p.cancel && t.pool.running == p.running
    ensures mode.Rechecked? ==> t.out != Some(ValueUndefined)
    ensures t.out == Some(Done) ==> Finished(t.pool) && t.pool.phase.Idle?
    ensures t.out.None? && t.pool.phase.Pulling? && p.source.IteratorSource? ==> t.pool.phase.pending == offer
    ensures t.out.Some? && t.out.value.Value? ==> |p.buffer| > 0
  {
    var p1 := p.(gate := CreateEvent(), phase := Idle);
    if |p1.buffer| > 0 then Transition(Shift(p1), Some(Value(p1.buffer[0])))
    else if mode.AsWritten? then Transition(p1, Some(ValueUndefined))
    else Next(p1, offer, mode)
  }

  /** Task `k`'s promise settles and its `then`/`catch` callback pushes its
      record; `working` is not yet decremented. */
  function OnTaskSettled<T, V, E>(p: Pool<T, V, E>, k: nat, o: Outcome<V, E>): (q: Pool<T, V, E>)
    requires k in p.running
    ensures k !in q.running && q.running.Keys == p.running.Keys - {k}
    ensures q.buffer == p.buffer + [Record(k, p.running[k], o)]
    ensures q.settled == p.settled + [Record(k, p.running[k], o)] && q.cleanups == p.cleanups + 1
    ensures q == p.(running := q.running, buffer := q.buffer, settled := q.settled, cleanups := q.cleanups)
  {
    var r := Record(k, p.running[k], o);
    p.(running := p.running - {k}, buffer := p.buffer + [r], settled := p.settled + [r],
       cleanups := p.cleanups + 1)
  }

  /** The final `then` of a task that has pushed its record: `working -= 1`
      and the gate fires. */
  function OnTaskCleanedUp<T, V, E>(p: Pool<T, V, E>): (q: Pool<T, V, E>)
    requires p.cleanups > 0
    ensures q.working == p.working - 1 && q.cleanups == p.cleanups - 1
    ensures q.gate.fired
    ensures q == p.(working := q.working, cleanups := q.cleanups, gate := q.gate)
  {
    p.(working := p.working - 1, cleanups := p.cleanups - 1, gate := Emit(p.gate))
  }

  /** The caller appends to the array it passed as the source. */
  function OnItemAppended<T, V, E>(p: Pool<T, V, E>, x: T): (q: Pool<T, V, E>)
    requires p.source.ArraySource?
    ensures q.source == ArraySource(p.source.items + [x], p.source.cursor)
    ensures q.(source := p.source) == p
  {
    p.(source := ArraySource(p.source.items + [x], p.source.cursor))
  }

  /** Someone calls the `cancel` function of the pool's token. */
  function OnCancel<T, V, E>(p: Pool<T, V, E>, message: Option<string>): (q: Pool<T, V, E>)
    requires p.cancel.Some?
    ensures Cancelled(q)
    ensures Cancelled(p) ==> q == p
    ensures q.(cancel := p.cancel) == p
  {
    p.(cancel := Some(CancelTokens.RequestCancel(p.cancel.value, message)))
  }

  /** Everything that can happen to a pool: the consumer's call of `next()`,
      the resumption of one of its awaits, a task's two callbacks, and the
      caller's appends and cancellation. */
  datatype Action<T, V, E> =
    | NextCalled(offer: IterResult<T>)
    | PullReturned(offer: IterResult<T>)
    | GateOpened(offer: IterResult<T>)
    | TaskSettled(k: nat, outcome: Outcome<V, E>)
    | TaskCleanedUp
    | ItemAppended(x: T)
    | CancelCalled(message: Option<string>)

  /** Whether `a` can happen in state `p`. */
  predicate Enabled<T, V, E>(p: Pool<T, V, E>, a: Action<T, V, E>)
  {
    match a
    case NextCalled(_) => p.phase.Idle?
    case PullReturned(_) => p.phase.Pulling?
    case GateOpened(_) => p.phase.Waiting? && p.gate.fired
    case TaskSettled(k, _) => k in p.running
    case TaskCleanedUp => p.cleanups > 0
    case ItemAppended(_) => p.source.ArraySource?
    case CancelCalled(_) => p.cancel.Some?
  }

  function Apply<T, V, E>(p: Pool<T, V, E>, a: Action<T, V, E>, mode: WakeMode): Transition<T, V, E>
    requires Enabled(p, a)
  {
    match a
    case NextCalled(offer) => Next(p, offer, mode)
    case PullReturned(offer) => OnPullReturned(p, offer, mode)
    case GateOpened(offer) => OnGateOpened(p, offer, mode)
    case TaskSettled(k, o) => Transition(OnTaskSettled(p, k, o), None)
    case TaskCleanedUp => Transition(OnTaskCleanedUp(p), None)
    case ItemAppended(x) => Transition(OnItemAppended(p, x), None)
    case CancelCalled(m) => Transition(OnCancel(p, m), None)
  }

  /** A run: the final state and everything `next()` resolved to. */
  datatype Run<T, V, E> = Run(pool: Pool<T, V, E>, outs: seq<PullResult<T, V, E>>)

  /** Performs `actions` in order; an action that cannot happen in the state
      reached is skipped. */
  function RunActions<T, V, E>(p: Pool<T, V, E>, actions: seq<Action<T, V, E>>, mode: WakeMode): Run<T, V, E>
    decreases |actions|
  {
    if |actions| == 0 then Run(p, [])
    else
      var t := Step(p, actions[0], mode);
      var rest := RunActions(t.pool, actions[1..], mode);
      Run(rest.pool, Emitted(t) + rest.outs)
  }

  /** `a` applied when it can happen, and otherwise nothing. */
  function Step<T, V, E>(p: Pool<T, V, E>, a: Action<T, V, E>, mode: WakeMode): Transition<T, V, E>
  {
    if Enabled(p, a) then Apply(p, a, mode) else Transition(p, None)
  }

  /** What a step hands to the consumer, as a sequence of at most one result. */
  function Emitted<T, V, E>(t: Transition<T, V, E>): seq<PullResult<T, V, E>>
  {
    if t.out.Some? then [t.out.value] else []
  }
}

=== FILE: setup.dfy ===
/** The entry of `asyncPool`: option handling and the initial state, in the
    two copies of the library. lib/modern.js reads `limit` with a default
    parameter, lib/index.js with `||`; both then look for an iterator and
    start from the same state. */
module Setup {
  import opened Wrappers
  import opened Js
  import opened Utils
  import opened Scheduler
  import opened Invariants
  import CancelTokens

  /** `options.limit`: absent (`undefined`), `null`, or a number. */
  datatype LimitArg = Absent | NullLimit | Given(n: int)

  /** The `options` object. */
  datatype Options = Options(limit: LimitArg, cancel: Option<CancelTokens.CancelToken>)

  /** The `iterable` argument: an array, any other value with a
      `Symbol.iterator` or `Symbol.asyncIterator` method, or neither. */
  datatype Iterable<T> = ArrayValue(items: seq<T>) | IteratorValue | NotIterable

  const DefaultLimit: nat := 25
  const LimitMessage := "Pool limit must be a positive integer"
  const IterableMessage := "`iterable` must be iterable or array!"

  /** lib/modern.js: `const { limit = 25 } = options`, then `limit <= 0`
      throws. The default applies to `undefined` only, and `null <= 0` holds
      in JavaScript, so a `null` limit throws. */
  function ModernLimit(l: LimitArg): (r: Result<nat, Thrown>)
    ensures r.Success? ==> r.value > 0
    ensures r.Failure? ==> r.error == Error(LimitMessage)
    ensures r.Failure? <==> l.NullLimit? || (l.Given? && l.n <= 0)
    ensures l.Absent? ==> r == Success(DefaultLimit)
    ensures l.Given? && l.n > 0 ==> r == Success(l.n)
  {
    match l
    case Absent => Success(DefaultLimit)
    case NullLimit => Failure(Error(LimitMessage))
    case Given(n) => if n <= 0 then Failure(Error(LimitMessage)) else Success(n)
  }

  /** lib/index.js: `options.limit || 25`, then `limit <= 0` throws. Every
      falsy limit (absent, `null`, `0`) becomes 25, so only a negative limit
      throws. */
  function LegacyLimit(l: LimitArg): (r: Result<nat, Thrown>)
    ensures r.Success? ==> r.value > 0
    ensures r.Failure? ==> r.error == Error(LimitMessage)
    ensures r.Failure? <==> l.Given? && l.n < 0
    ensures (l.Absent? || l.NullLimit? || l == Given(0)) ==> r == Success(DefaultLimit)
    ensures l.Given? && l.n > 0 ==> r == Success(l.n)
  {
    var limit := if l.Given? && l.n != 0 then l.n else DefaultLimit;
    if limit <= 0 then Failure(Error(LimitMessage)) else Success(limit)
  }

  /** The two copies read every limit alike except `null` and `0`, which the
      modern copy refuses and the legacy copy replaces by the default. */
  lemma LimitCopiesAgree(l: LimitArg)
    ensures l != NullLimit && l != Given(0) ==> ModernLimit(l) == LegacyLimit(l)
    ensures l == NullLimit || l == Given(0) ==>
      ModernLimit(l).Failure? && LegacyLimit(l) == Success(DefaultLimit)
  {
  }

  /** The state right after `asyncPool` returns: nothing pulled, dispatched
      or buffered, and a fresh gate. */
  function Fresh<T, V, E>(limit: nat, cancel: Option<CancelTokens.CancelToken>, source: Source<T>): Pool<T, V, E>
  {
    Pool(limit, cancel, source, 0, 0, [], None, CreateEvent(), Idle, map[], 0, [], [], [], 0, None)
  }

  /** The state `asyncPool` returns over `iterable`: nothing pulled,
      dispatched, running, buffered or delivered, an unfired gate, and for an
      array a cursor at its first element. */
  ghost predicate Initial<T, V, E>(p: Pool<T, V, E>, iterable: Iterable<T>)
  {
    && p.idx == 0 && p.working == 0 && p.pulls == 0 && p.phase.Idle?
    && p.buffer == [] && p.last.None? && !p.gate.fired
    && p.running == map[] && p.cleanups == 0 && p.doneAt.None?
    && p.dispatched == [] && p.settled == [] && p.delivered == []
    && (p.source.ArraySource? <==> iterable.ArrayValue?)
    && (iterable.ArrayValue? ==> p.source == ArraySource(iterable.items, ArrayCursor(0)))
  }

  /** Finds the iterator, after the limit has been accepted. An array is
      iterated by position, reading its length on every call; a value with
      neither iterator method nor array type throws. */
  function Construct<T, V, E>(limit: nat, cancel: Option<CancelTokens.CancelToken>, iterable: Iterable<T>): (r: Result<Pool<T, V, E>, Thrown>)
    requires limit > 0
    ensures r.Failure? <==> iterable.NotIterable?
    ensures r.Failure? ==> r.error == Error(IterableMessage)
    ensures r.Success? ==> r.value.limit == limit && r.value.cancel == cancel
    ensures r.Success? ==> Initial(r.value, iterable)
  {
    match iterable
    case NotIterable => Failure(Error(IterableMessage))
    case IteratorValue => Success(Fresh(limit, cancel, IteratorSource))
    case ArrayValue(items) =>
      var c := ArrayIterator(IsArray(items)).value;
      Success(Fresh(limit, cancel, ArraySource(items, c)))
  }

  /** `asyncPool` of lib/modern.js, up to its first `next()`: the limit is
      checked before the iterable. */
  function CreateModern<T, V, E>(iterable: Iterable<T>, options: Options): (r: Result<Pool<T, V, E>, Thrown>)
    ensures r.Failure? <==> options.limit.NullLimit? || (options.limit.Given? && options.limit.n <= 0) || iterable.NotIterable?
    ensures (options.limit.NullLimit? || (options.limit.Given? && options.limit.n <= 0)) ==> r == Failure(Error(LimitMessage))
    ensures r.Failure? && r.error != Error(LimitMessage) ==> iterable.NotIterable?
    ensures ModernLimit(options.limit).Success? && iterable.NotIterable? ==> r == Failure(Error(IterableMessage))
    ensures r.Success? ==> r.value.cancel == options.cancel
    ensures r.Success? ==> r.value.limit == (if options.limit.Absent? then DefaultLimit else options.limit.n)
    ensures r.Success? ==> Initial(r.value, iterable)
  {
    match ModernLimit(options.limit)
    case Failure(e) => Failure(e)
    case Success(limit) => Construct(limit, options.cancel, iterable)
  }

  /** `asyncPool` of lib/index.js, up to its first `next()`. */
  function CreateLegacy<T, V, E>(iterable: Iterable<T>, options: Options): (r: Result<Pool<T, V, E>, Thrown>)
    ensures r.Failure? <==> (options.limit.Given? && options.limit.n < 0) || iterable.NotIterable?
    ensures options.limit.Given? && options.limit.n < 0 ==> r == Failure(Error(LimitMessage))
    ensures r.Failure? && r.error != Error(LimitMessage) ==> iterable.NotIterable?
    ensures LegacyLimit(options.limit).Success? && iterable.NotIterable? ==> r == Failure(Error(IterableMessage))
    ensures r.Success? ==> r.value.cancel == options.cancel
    ensures r.Success? ==> r.value.limit == (if options.limit.Given? && options.limit.n > 0 then options.limit.n else DefaultLimit)
    ensures r.Success? ==> Initial(r.value, iterable)
  {
    match LegacyLimit(options.limit)
    case Failure(e) => Failure(e)
    case Success(limit) => Construct(limit, options.cancel, iterable)
  }

  /** Every pool either copy creates satisfies the scheduler's invariant,
      and so does every state it reaches afterwards. */
  lemma CreatedPoolsAreValid<T, V, E>(iterable: Iterable<T>, options: Options, actions: seq<Action<T, V, E>>, mode: WakeMode)
    ensures CreateModern<T, V, E>(iterable, options).Success? ==>
      Valid(RunActions(CreateModern<T, V, E>(iterable, options).value, actions, mode).pool)
    ensures CreateLegacy<T, V, E>(iterable, options).Success? ==>
      Valid(RunActions(CreateLegacy<T, V, E>(iterable, options).value, actions, mode).pool)
  {
    var m := CreateModern<T, V, E>(iterable, options);
    var l := CreateLegacy<T, V, E>(iterable, options);
    if m.Success? {
      InitialIsValid(m.value, iterable);
      RunPreservesValid(m.value, actions, mode);
    }
    if l.Success? {
      InitialIsValid(l.value, iterable);
      RunPreservesValid(l.value, actions, mode);
    }
  }

  lemma InitialIsValid<T, V, E>(p: Pool<T, V, E>, iterable: Iterable<T>)
    requires p.limit > 0 && Initial(p, iterable)
    ensures Valid(p) && DoneSawArray(p) && DoneAtLength(p)
  {
  }

  /** Over an array, a pool either copy creates has dispatched, once its
      iterator reports `done`, every element the array held at that moment;
      the whole array when nobody appended to it. */
  lemma CreatedPoolsDispatchWholeArray<T, V, E>(items: seq<T>, options: Options, actions: seq<Action<T, V, E>>, mode: WakeMode)
    ensures var c := CreateModern<T, V, E>(ArrayValue(items), options);
      c.Success? ==> DispatchedAtDone(c.value, items, actions, mode)
    ensures var c := CreateLegacy<T, V, E>(ArrayValue(items), options);
      c.Success? ==> DispatchedAtDone(c.value, items, actions, mode)
  {
    var m := CreateModern<T, V, E>(ArrayValue(items), options);
    var l := CreateLegacy<T, V, E>(ArrayValue(items), options);
    if m.Success? {
      InitialIsValid(m.value, ArrayValue(items));
      DoneDispatchedArray(m.value, actions, mode);
      if forall i :: 0 <= i < |actions| ==> !actions[i].ItemAppended? {
        DoneWithoutAppendsDispatchedAll(m.value, actions, mode);
      }
    }
    if l.Success? {
      InitialIsValid(l.value, ArrayValue(items));
      DoneDispatchedArray(l.value, actions, mode);
      if forall i :: 0 <= i < |actions| ==> !actions[i].ItemAppended? {
        DoneWithoutAppendsDispatchedAll(l.value, actions, mode);
      }
    }
  }

  /** After `actions`, a pool over `items` that has seen `done` has dispatched
      the array as it stood then, and all of `items` when nothing was appended. */
  ghost predicate DispatchedAtDone<T, V, E>(p: Pool<T, V, E>, items: seq<T>, actions: seq<Action<T, V, E>>, mode: WakeMode)
  {
    var q := RunActions(p, actions, mode).pool;
    SourceDone(q) ==>
      && q.source.ArraySource? && q.doneAt.Some? && q.doneAt.value <= |q.source.items|
      && q.dispatched == q.source.items[..q.doneAt.value]
      && ((forall i :: 0 <= i < |actions| ==> !actions[i].ItemAppended?) ==> q.dispatched == items)
  }

  /** The two copies build the same pool from the same arguments, except for
      a `null` or `0` limit. */
  lemma CopiesAgree<T, V, E>(iterable: Iterable<T>, options: Options)
    requires options.limit != NullLimit && options.limit != Given(0)
    ensures CreateModern<T, V, E>(iterable, options) == CreateLegacy<T, V, E>(iterable, options)
  {
    LimitCopiesAgree(options.limit);
  }
}

=== FILE: traces.dfy ===
/** Concrete runs of the scheduler, in the code as written and in the
    corrected reading, and the stranded wait they expose. */
module Traces {
  import opened Wrappers
  import opened Utils
  import opened Scheduler
  import opened Invariants
  import opened Setup

  /** Pools over numbers whose tasks fulfil with numbers or reject with a message. */
  type NumPool = Pool<int, int, string>
  type NumAction = Action<int, int, string>

  function Fulfil(k: nat, x: int): Record<int, int, string>
  {
    Record(k, x, Fulfilled(x))
  }

  /** The pool of `asyncPool(executor, items, { limit })`, `limit` positive. */
  function Started(items: seq<int>, limit: nat): (p: NumPool)
    requires limit > 0
    ensures CreateModern(ArrayValue(items), Options(Given(limit), None)) == Success(p)
    ensures CreateLegacy(ArrayValue(items), Options(Given(limit), None)) == Success(p)
    ensures Valid(p) && WaitCanEnd(p)
  {
    Fresh(limit, None, ArraySource(items, ArrayCursor(0)))
  }

  /** A run whose first step is known. */
  lemma RunFirstStep<T, V, E>(p: Pool<T, V, E>, a: Action<T, V, E>, rest: seq<Action<T, V, E>>, mode: WakeMode,
                              q: Pool<T, V, E>, o: Option<PullResult<T, V, E>>, r: Pool<T, V, E>, outs: seq<PullResult<T, V, E>>)
    requires Step(p, a, mode) == Transition(q, o)
    requires RunActions(q, rest, mode) == Run(r, outs)
    ensures RunActions(p, [a] + rest, mode) == Run(r, (if o.Some? then [o.value] else []) + outs)
  {
    assert ([a] + rest)[0] == a;
    assert ([a] + rest)[1..] == rest;
  }

  /** Limit 2 over `[10, 20]`, with a consumer that is slow between its calls:
      the second task finishes before the consumer asks again, so its `emit`
      fires a gate nobody is waiting on yet. Written back to front, one suffix
      per state the schedule passes through. */
  const AtLast: seq<NumAction> := [NextCalled(Exhausted)]
  const AtStaleWake: seq<NumAction> := [GateOpened(Exhausted)] + AtLast       // as written, opens at once
  const AtDoneReturned: seq<NumAction> := [PullReturned(Exhausted)] + AtStaleWake  // the loop ends
  const AtFinalPull: seq<NumAction> := [NextCalled(Exhausted)] + AtDoneReturned   // pulls `done`
  const AtSecondNext: seq<NumAction> := [NextCalled(Exhausted)] + AtFinalPull     // fast path: record 1
  const AtSecondCleanup: seq<NumAction> := [TaskCleanedUp] + AtSecondNext      // fires the fresh gate
  const AtSecondSettle: seq<NumAction> := [TaskSettled(1, Fulfilled(20))] + AtSecondCleanup
  const AtFirstWake: seq<NumAction> := [GateOpened(Exhausted)] + AtSecondSettle  // fresh gate; record 0
  const AtFirstCleanup: seq<NumAction> := [TaskCleanedUp] + AtFirstWake        // fires the gate
  const AtFirstSettle: seq<NumAction> := [TaskSettled(0, Fulfilled(10))] + AtFirstCleanup
  const AtLimit: seq<NumAction> := [PullReturned(Exhausted)] + AtFirstSettle    // dispatches 20, waits
  const AtSecondPull: seq<NumAction> := [PullReturned(Exhausted)] + AtLimit     // dispatches 10, pulls 20
  const SlowConsumer: seq<NumAction> := [NextCalled(Exhausted)] + AtSecondPull  // pulls 10

  /** The first pull has been called. */
  function Pulled10(): NumPool
  {
    Started([10, 20], 2).(source := ArraySource([10, 20], ArrayCursor(1)), phase := Pulling(Yield(10)), pulls := 1)
  }

  /** 10 dispatched, the second pull called. */
  function Pulled20(): NumPool
  {
    Pulled10().(source := ArraySource([10, 20], ArrayCursor(2)), idx := 1, working := 1,
      last := Some(Yield(10)), phase := Pulling(Yield(20)), running := map[0 := 10],
      dispatched := [10], pulls := 2)
  }

  /** Both tasks running, the consumer waiting. */
  function Full(): NumPool
  {
    Pulled20().(idx := 2, working := 2, last := Some(Yield(20)), phase := Waiting,
      running := map[0 := 10, 1 := 20], dispatched := [10, 20])
  }

  /** Task 0 has pushed its record. */
  function FirstPushed(): NumPool
  {
    Full().(running := map[1 := 20], buffer := [Fulfil(0, 10)], settled := [Fulfil(0, 10)], cleanups := 1)
  }

  /** Task 0 has finished its cleanup and fired the gate. */
  function FirstCleaned(): NumPool
  {
    FirstPushed().(working := 1, cleanups := 0, gate := Event(true))
  }

  /** Record 0 delivered, task 1 running, a fresh gate. */
  function OneDelivered(): NumPool
  {
    FirstCleaned().(gate := Event(false), phase := Idle, buffer := [], delivered := [Fulfil(0, 10)])
  }

  /** Task 1 has pushed its record. */
  function SecondPushed(): NumPool
  {
    OneDelivered().(running := map[], buffer := [Fulfil(1, 20)],
      settled := [Fulfil(0, 10), Fulfil(1, 20)], cleanups := 1)
  }

  /** Task 1 has finished its cleanup and fired the fresh gate. */
  function SecondCleaned(): NumPool
  {
    SecondPushed().(working := 0, cleanups := 0, gate := Event(true))
  }

  /** Both records delivered, no task running, and the gate fired by the
      second task's `emit`. */
  function BothDelivered(): NumPool
  {
    SecondCleaned().(buffer := [], delivered := [Fulfil(0, 10), Fulfil(1, 20)])
  }

  /** The pull that reports `done` has been called. */
  function PulledDone(): NumPool
  {
    BothDelivered().(phase := Pulling(Exhausted), pulls := 3, doneAt := Some(2))
  }

  /** `done` applied: as written the consumer waits on the stale gate;
      corrected, it has reported `done`. */
  function AfterDone(mode: WakeMode): NumPool
  {
    PulledDone().(last := Some(Exhausted), phase := if mode.AsWritten? then Waiting else Idle)
  }

  /** As written, the stale gate has let the consumer through. */
  function AfterStaleWake(): NumPool
  {
    AfterDone(AsWritten).(gate := Event(false), phase := Idle)
  }

  /** Where the run ends. */
  function SlowConsumerEnd(mode: WakeMode): NumPool
  {
    if mode.AsWritten? then AfterStaleWake() else AfterDone(Rechecked)
  }

  /** What the consumer receives once the last pull has returned. */
  function Tail(mode: WakeMode): seq<PullResult<int, int, string>>
  {
    if mode.AsWritten? then [ValueUndefined, Done] else [Done, Done]
  }

  lemma EndStays(mode: WakeMode)
    ensures Step(SlowConsumerEnd(mode), NextCalled(Exhausted), mode) == Transition(SlowConsumerEnd(mode), Some(Done))
  {
  }

  lemma FromEnd(mode: WakeMode)
    ensures RunActions(SlowConsumerEnd(mode), AtLast, mode) == Run(SlowConsumerEnd(mode), [Done])
  {
    EndStays(mode);
    RunFirstStep(SlowConsumerEnd(mode), NextCalled(Exhausted), [], mode, SlowConsumerEnd(mode), Some(Done), SlowConsumerEnd(mode), []);
  }

  lemma StaleWake(mode: WakeMode)
    ensures Step(AfterDone(mode), GateOpened(Exhausted), mode) == Transition(SlowConsumerEnd(mode), if mode.AsWritten? then Some(ValueUndefined) else None)
  {
  }

  lemma FromAfterDone(mode: WakeMode)
    ensures RunActions(AfterDone(mode), AtStaleWake, mode)
      == Run(SlowConsumerEnd(mode), if mode.AsWritten? then [ValueUndefined, Done] else [Done])
  {
    StaleWake(mode);
    FromEnd(mode);
    var o: Option<PullResult<int, int, string>> := if mode.AsWritten? then Some(ValueUndefined) else None;
    RunFirstStep(AfterDone(mode), GateOpened(Exhausted), AtLast, mode, SlowConsumerEnd(mode), o, SlowConsumerEnd(mode), [Done]);
  }

  lemma FinalPullReturns(mode: WakeMode)
    ensures Step(PulledDone(), PullReturned(Exhausted), mode) == Transition(AfterDone(mode), if mode.AsWritten? then None else Some(Done))
  {
  }

  lemma FromPulledDone(mode: WakeMode)
    ensures RunActions(PulledDone(), AtDoneReturned, mode) == Run(SlowConsumerEnd(mode), Tail(mode))
  {
    FinalPullReturns(mode);
    FromAfterDone(mode);
    var o: Option<PullResult<int, int, string>> := if mode.AsWritten? then None else Some(Done);
    RunFirstStep(PulledDone(), PullReturned(Exhausted), AtStaleWake, mode, AfterDone(mode), o,
                 SlowConsumerEnd(mode), if mode.AsWritten? then [ValueUndefined, Done] else [Done]);
  }

  lemma FinalPull(mode: WakeMode)
    ensures Step(BothDelivered(), NextCalled(Exhausted), mode) == Transition(PulledDone(), None)
  {
  }

  lemma FromBothDelivered(mode: WakeMode)
    ensures RunActions(BothDelivered(), AtFinalPull, mode) == Run(SlowConsumerEnd(mode), Tail(mode))
  {
    FinalPull(mode);
    FromPulledDone(mode);
    RunFirstStep(BothDelivered(), NextCalled(Exhausted), AtDoneReturned, mode, PulledDone(), None, SlowConsumerEnd(mode), Tail(mode));
  }

  lemma SecondFromBuffer(mode: WakeMode)
    ensures Step(SecondCleaned(), NextCalled(Exhausted), mode) == Transition(BothDelivered(), Some(Value(Fulfil(1, 20))))
  {
  }

  lemma FromSecondCleaned(mode: WakeMode)
    ensures RunActions(SecondCleaned(), AtSecondNext, mode)
      == Run(SlowConsumerEnd(mode), [Value(Fulfil(1, 20))] + Tail(mode))
  {
    SecondFromBuffer(mode);
    FromBothDelivered(mode);
    RunFirstStep(SecondCleaned(), NextCalled(Exhausted), AtFinalPull, mode, BothDelivered(), Some(Value(Fulfil(1, 20))),
                 SlowConsumerEnd(mode), Tail(mode));
  }

  lemma SecondCleansUp(mode: WakeMode)
    ensures Step(SecondPushed(), TaskCleanedUp, mode) == Transition(SecondCleaned(), None)
  {
  }

  lemma FromSecondPushed(mode: WakeMode)
    ensures RunActions(SecondPushed(), AtSecondCleanup, mode)
      == Run(SlowConsumerEnd(mode), [Value(Fulfil(1, 20))] + Tail(mode))
  {
    SecondCleansUp(mode);
    FromSecondCleaned(mode);
    RunFirstStep(SecondPushed(), TaskCleanedUp, AtSecondNext, mode, SecondCleaned(), None,
                 SlowConsumerEnd(mode), [Value(Fulfil(1, 20))] + Tail(mode));
  }

  lemma SecondSettles(mode: WakeMode)
    ensures Step(OneDelivered(), TaskSettled(1, Fulfilled(20)), mode) == Transition(SecondPushed(), None)
  {
    assert map[1 := 20] - {1} == map[];
  }

  lemma FromOneDelivered(mode: WakeMode)
    ensures RunActions(OneDelivered(), AtSecondSettle, mode)
      == Run(SlowConsumerEnd(mode), [Value(Fulfil(1, 20))] + Tail(mode))
  {
    SecondSettles(mode);
    FromSecondPushed(mode);
    RunFirstStep(OneDelivered(), TaskSettled(1, Fulfilled(20)), AtSecondCleanup, mode, SecondPushed(), None,
                 SlowConsumerEnd(mode), [Value(Fulfil(1, 20))] + Tail(mode));
  }

  lemma FirstWakes(mode: WakeMode)
    ensures Step(FirstCleaned(), GateOpened(Exhausted), mode) == Transition(OneDelivered(), Some(Value(Fulfil(0, 10))))
  {
  }

  lemma FromFirstCleaned(mode: WakeMode)
    ensures RunActions(FirstCleaned(), AtFirstWake, mode)
      == Run(SlowConsumerEnd(mode), [Value(Fulfil(0, 10)), Value(Fulfil(1, 20))] + Tail(mode))
  {
    FirstWakes(mode);
    FromOneDelivered(mode);
    assert [Value(Fulfil(0, 10))] + ([Value(Fulfil(1, 20))] + Tail(mode))
      == [Value(Fulfil(0, 10)), Value(Fulfil(1, 20))] + Tail(mode);
    RunFirstStep(FirstCleaned(), GateOpened(Exhausted), AtSecondSettle, mode, OneDelivered(), Some(Value(Fulfil(0, 10))),
                 SlowConsumerEnd(mode), [Value(Fulfil(1, 20))] + Tail(mode));
  }

  lemma FirstCleansUp(mode: WakeMode)
    ensures Step(FirstPushed(), TaskCleanedUp, mode) == Transition(FirstCleaned(), None)
  {
  }

  lemma FromFirstPushed(mode: WakeMode)
    ensures RunActions(FirstPushed(), AtFirstCleanup, mode)
      == Run(SlowConsumerEnd(mode), [Value(Fulfil(0, 10)), Value(Fulfil(1, 20))] + Tail(mode))
  {
    FirstCleansUp(mode);
    FromFirstCleaned(mode);
    RunFirstStep(FirstPushed(), TaskCleanedUp, AtFirstWake, mode, FirstCleaned(), None,
                 SlowConsumerEnd(mode), [Value(Fulfil(0, 10)), Value(Fulfil(1, 20))] + Tail(mode));
  }

  lemma FirstSettles(mode: WakeMode)
    ensures Step(Full(), TaskSettled(0, Fulfilled(10)), mode) == Transition(FirstPushed(), None)
  {
    assert map[0 := 10, 1 := 20] - {0} == map[1 := 20];
  }

  lemma FromFull(mode: WakeMode)
    ensures RunActions(Full(), AtFirstSettle, mode)
      == Run(SlowConsumerEnd(mode), [Value(Fulfil(0, 10)), Value(Fulfil(1, 20))] + Tail(mode))
  {
    FirstSettles(mode);
    FromFirstPushed(mode);
    RunFirstStep(Full(), TaskSettled(0, Fulfilled(10)), AtFirstCleanup, mode, FirstPushed(), None,
                 SlowConsumerEnd(mode), [Value(Fulfil(0, 10)), Value(Fulfil(1, 20))] + Tail(mode));
  }

  lemma LimitReached(mode: WakeMode)
    ensures Step(Pulled20(), PullReturned(Exhausted), mode) == Transition(Full(), None)
  {
  }

  lemma FromPulled20(mode: WakeMode)
    ensures RunActions(Pulled20(), AtLimit, mode)
      == Run(SlowConsumerEnd(mode), [Value(Fulfil(0, 10)), Value(Fulfil(1, 20))] + Tail(mode))
  {
    LimitReached(mode);
    FromFull(mode);
    RunFirstStep(Pulled20(), PullReturned(Exhausted), AtFirstSettle, mode, Full(), None,
                 SlowConsumerEnd(mode), [Value(Fulfil(0, 10)), Value(Fulfil(1, 20))] + Tail(mode));
  }

  lemma SecondPull(mode: WakeMode)
    ensures Step(Pulled10(), PullReturned(Exhausted), mode) == Transition(Pulled20(), None)
  {
  }

  lemma FromPulled10(mode: WakeMode)
    ensures RunActions(Pulled10(), AtSecondPull, mode)
      == Run(SlowConsumerEnd(mode), [Value(Fulfil(0, 10)), Value(Fulfil(1, 20))] + Tail(mode))
  {
    SecondPull(mode);
    FromPulled20(mode);
    RunFirstStep(Pulled10(), PullReturned(Exhausted), AtLimit, mode, Pulled20(), None,
                 SlowConsumerEnd(mode), [Value(Fulfil(0, 10)), Value(Fulfil(1, 20))] + Tail(mode));
  }

  lemma FirstPull(mode: WakeMode)
    ensures Step(Started([10, 20], 2), NextCalled(Exhausted), mode) == Transition(Pulled10(), None)
  {
  }

  /** The whole schedule: both records, then what the stale gate does. */
  lemma SlowConsumerRun(mode: WakeMode)
    ensures RunActions(Started([10, 20], 2), SlowConsumer, mode)
      == Run(SlowConsumerEnd(mode), [Value(Fulfil(0, 10)), Value(Fulfil(1, 20))] + Tail(mode))
  {
    FirstPull(mode);
    FromPulled10(mode);
    RunFirstStep(Started([10, 20], 2), NextCalled(Exhausted), AtSecondPull, mode, Pulled10(), None,
                 SlowConsumerEnd(mode), [Value(Fulfil(0, 10)), Value(Fulfil(1, 20))] + Tail(mode));
  }

  /** As written, the third `next()` resolves to `{done: false, value:
      undefined}`: the stale gate lets the consumer shift an empty buffer. */
  lemma StaleGateYieldsUndefined()
    ensures RunActions(Started([10, 20], 2), SlowConsumer, AsWritten).outs
      == [Value(Fulfil(0, 10)), Value(Fulfil(1, 20)), ValueUndefined, Done]
  {
    SlowConsumerRun(AsWritten);
  }

  /** Corrected, the same schedule ends with `done`; the stale gate's
      resumption never happens because the consumer is not waiting. */
  lemma RecheckedEndsWithDone()
    ensures RunActions(Started([10, 20], 2), SlowConsumer, Rechecked).outs
      == [Value(Fulfil(0, 10)), Value(Fulfil(1, 20)), Done, Done]
  {
    SlowConsumerRun(Rechecked);
  }

  /** `asyncPool` over an empty array, as written: the first `next()` pulls
      `done` and then waits on a gate no task will ever fire. */
  lemma EmptyArrayStrands()
    ensures var r := RunActions(Started([], 2), [NextCalled(Exhausted), PullReturned(Exhausted)], AsWritten);
      r.outs == [] && Valid(r.pool) && !WaitCanEnd(r.pool)
  {
    RunPreservesValid(Started([], 2), [NextCalled(Exhausted), PullReturned(Exhausted)], AsWritten);
  }

  /** Corrected, the empty array reports `done` on the first call, and the
      corrected pool is never stranded. */
  lemma EmptyArrayDoneWhenRechecked(actions: seq<NumAction>)
    ensures RunActions(Started([], 2), [NextCalled(Exhausted), PullReturned(Exhausted)], Rechecked).outs == [Done]
    ensures WaitCanEnd(RunActions(Started([], 2), actions, Rechecked).pool)
  {
    RecheckedNeverStranded(Started([], 2), actions);
  }
}

=== FILE: utils.dfy ===
/** The two helpers of lib/utils.js: the array iterator with a live cursor and
    the one-shot event the scheduler uses as its wake gate. */
module Utils {
  import opened Wrappers
  import opened Js

  /** One result of the iteration protocol (ECMA-262 section 27.1):
      `{done: false, value}` or `{done: true}`. */
  datatype IterResult<T> = Yield(value: T) | Exhausted

  /** The argument of `arrayIterator`: an Array, or any other value. */
  datatype ArrayArg<T> = IsArray(items: seq<T>) | NotArray

  /** The closure state of `arrayIterator`: the position of the next element.
      The array is shared with the caller, never copied, so every call to
      `ArrayNext` is handed the array's contents at the time of that call. */
  datatype ArrayCursor = ArrayCursor(pos: nat)

  /** `arrayIterator(arr)`: refuses anything but an array, and otherwise
      starts a cursor at the first element. */
  function ArrayIterator<T>(arg: ArrayArg<T>): (r: Result<ArrayCursor, Thrown>)
    ensures r.Failure? <==> arg.NotArray?
    ensures r.Failure? ==> r.error == Error("Not an array!")
    ensures r.Success? ==> r.value.pos == 0
  {
    if arg.NotArray? then Failure(Error("Not an array!")) else Success(ArrayCursor(0))
  }

  /** The iterator's `next`: the element under the cursor, moving the cursor
      one place, or `done` without moving it. The length is read on every call. */
  function ArrayNext<T>(arr: seq<T>, c: ArrayCursor): (r: (IterResult<T>, ArrayCursor))
    ensures c.pos < |arr| ==> r.0 == Yield(arr[c.pos]) && r.1.pos == c.pos + 1
    ensures |arr| <= c.pos ==> r.0 == Exhausted && r.1 == c
  {
    if c.pos < |arr| then (Yield(arr[c.pos]), ArrayCursor(c.pos + 1)) else (Exhausted, c)
  }

  /** Calls `next` on a fresh iterator over `arr` until it reports `done`,
      collecting the values. */
  method DrainArray<T>(arr: seq<T>) returns (ys: seq<T>, c: ArrayCursor, calls: nat)
    ensures ys == arr
    ensures c.pos == |arr| && calls == |arr| + 1
    ensures ArrayNext(arr, c) == (Exhausted, c)
  {
    c := ArrayIterator(IsArray(arr)).value;
    ys := [];
    calls := 0;
    var done := false;
    while !done
      invariant c.pos <= |arr|
      invariant ys == arr[..c.pos]
      invariant done ==> c.pos == |arr|
      invariant calls == c.pos + (if done then 1 else 0)
      decreases |arr| - c.pos + (if done then 0 else 1)
    {
      var step := ArrayNext(arr, c);
      calls := calls + 1;
      match step.0
      case Yield(x) =>
        ys := ys + [x];
        c := step.1;
      case Exhausted =>
        done := true;
    }
  }

  /** What may happen to a live array source between two looks at it: an
      element is appended, or `next` is called. */
  datatype ArrayOp<T> = Append(x: T) | CallNext

  /** Applies `ops` in order to the array and its cursor; returns the final
      array, the final cursor and the values `next` yielded. */
  function Replay<T>(arr: seq<T>, c: ArrayCursor, ops: seq<ArrayOp<T>>): (seq<T>, ArrayCursor, seq<T>)
    decreases |ops|
  {
    if |ops| == 0 then (arr, c, [])
    else match ops[0]
      case Append(x) => Replay(arr + [x], c, ops[1..])
      case CallNext =>
        var step := ArrayNext(arr, c);
        var rest := Replay(arr, step.1, ops[1..]);
        (rest.0, rest.1, (if step.0.Yield? then [step.0.value] else []) + rest.2)
  }

  /** Under any mix of appends and calls, the cursor stays within the array
      and the values yielded are exactly the elements it passed over, in
      order: late appends are seen, nothing is skipped or repeated. */
  lemma {:induction false} LiveCursorYieldsInOrder<T>(arr: seq<T>, c: ArrayCursor, ops: seq<ArrayOp<T>>)
    requires c.pos <= |arr|
    ensures var r := Replay(arr, c, ops);
      && arr <= r.0
      && c.pos <= r.1.pos <= |r.0|
      && r.2 == r.0[c.pos..r.1.pos]
    decreases |ops|
  {
    if |ops| == 0 {
    } else {
      match ops[0]
      case Append(x) =>
        LiveCursorYieldsInOrder(arr + [x], c, ops[1..]);
        var r := Replay(arr + [x], c, ops[1..]);
        assert arr <= arr + [x] <= r.0;
      case CallNext =>
        var step := ArrayNext(arr, c);
        LiveCursorYieldsInOrder(arr, step.1, ops[1..]);
        var rest := Replay(arr, step.1, ops[1..]);
        if c.pos < |arr| {
          assert rest.0[c.pos] == arr[c.pos];
          assert [arr[c.pos]] + rest.0[c.pos + 1..rest.1.pos] == rest.0[c.pos..rest.1.pos];
        }
    }
  }

  /** The one-shot event of `createEvent`: a promise together with its own
      resolve function; `fired` says whether it has been resolved. */
  datatype Event = Event(fired: bool)

  /** A fresh event, not yet resolved. */
  function CreateEvent(): (e: Event)
    ensures !e.fired
  {
    Event(false)
  }

  /** `emit()`: resolves the promise. A promise is resolved at most once
      (the `[[AlreadyResolved]]` flag of ECMA-262 section 27.2.1.3.2). */
  function Emit(e: Event): (r: Event)
    ensures r.fired
  {
    Event(true)
  }

  /** `emit()` called `n` times in a row. */
  function EmitTimes(e: Event, n: nat): Event
    decreases n
  {
    if n == 0 then e else EmitTimes(Emit(e), n - 1)
  }

  /** Only the first `emit` has an effect: any positive number of calls leaves
      the event exactly as one call does, and no number of calls un-fires it. */
  lemma {:induction false} OnlyFirstEmitCounts(e: Event, n: nat)
    ensures n >= 1 ==> EmitTimes(e, n) == Emit(e)
    ensures e.fired ==> EmitTimes(e, n) == e
    decreases n
  {
    if n >= 1 {
      OnlyFirstEmitCounts(Emit(e), n - 1);
    }
  }
}

=== FILE: wrappers.dfy ===
/** Optional values and results with an error, used wherever the source returns
    `null`/`undefined` or throws. */
module Wrappers {

  datatype Option<+T> = None | Some(value: T)

  datatype Result<+R, +E> = Success(value: R) | Failure(error: E)
}
